=== FILE: README.md ===
# Bitbucket Cloud scaffolder actions, modelled in Dafny

This project models the three Bitbucket Cloud template actions of the
scaffolder backend module and the helpers they share:

- `bitbucketCloud:repositories:configurePipeline` switches the pipelines feature of a repository on or off with one PUT.
- `createVariables` creates repository pipeline variables with one POST per variable.
- `createEnvironmentVariables` resolves a deployment environment by name with one GET, then creates variables in it with one POST per variable.

Every action first finds the integration configured for `bitbucket.org`. It
then checks its input and derives one Authorization header from the
configured credentials. That header is Basic (RFC 7617: user-id, colon,
password, UTF-8, then the Base64 of section 4 of RFC 4648) or Bearer
(section 2.1 of RFC 6750). Each action then talks to the REST API, stopping
at the first request that is not answered with the one status it accepts.

The HTTP layer is an oracle, a function from the requests already sent and
the next request to a response. A response is either a status, plus the
parsed environment list for the lookup, or a transport failure. Each action
is then a pure function from its inputs, the integration map, the generated
ids and the oracle to a `Run`. A `Run` holds the requests issued, in order,
and the outcome: `Success`, `InputError`, `ConfigError(NoIntegration |
NoAuthorization)` or `RemoteError(failure)`.

Files and modules:

| file | module | contents |
|---|---|---|
| wrappers.dfy | Wrappers | `Option`, `Result` |
| bytes.dfy | Bytes | the octet type both codecs share |
| base64.dfy | Base64 | encoder of RFC 4648 section 4, strict decoder, both round trips |
| utf8.dfy | Utf8 | encoder of RFC 3629 over scalar values, strict decoder, round trip |
| helpers.dfy | Helpers | truthiness, credentials, host, integration lookup, `AuthorizationHeader`, and the header parser `ParseAuthorization` as its partner |
| remote.dfy | Remote | requests, JSON bodies, responses, oracle, failures, outcomes, the status check |
| variables.dfy | Variables | variable bodies, the planned request list, the fail-fast create loop and its characterisation |
| pipeline_config.dfy | PipelineConfig | the configurePipeline action |
| pipeline_variables.dfy | PipelineVariables | the createVariables action |
| environment_variables.dfy | EnvironmentVariables | environment lookup and the createEnvironmentVariables action |

## Model

| member | source | states |
|---|---|---|
| Helpers.AuthorizationHeader | scaffolder-backend-module-bitbucket-cloud/src/actions/helpers.ts:6-27 | A header exists exactly when username and app password are both non-empty or the token is non-empty. Otherwise the error is NoAuthorization. An app-password login yields a Basic header that a receiver parses back to exactly that user-id and password. Otherwise a non-empty token yields a Bearer header that parses back to that token. |
| Helpers.TokenIgnored | scaffolder-backend-module-bitbucket-cloud/src/actions/helpers.ts:11-22 | Precedence: with a username and an app password, replacing the token by anything leaves the header unchanged. The header is "Basic " followed by the Base64 of the UTF-8 of "user:password". |
| Helpers.TokenFallback | scaffolder-backend-module-bitbucket-cloud/src/actions/helpers.ts:20-22 | Without a usable app-password login, a non-empty token gives "Bearer " followed by exactly the token. |
| Helpers.EmptyIsAbsent | scaffolder-backend-module-bitbucket-cloud/src/actions/helpers.ts:11-20 | An empty username or app password derives the same header, or the same error, as a missing one. |
| Helpers.ParseBasic | scaffolder-backend-module-bitbucket-cloud/src/actions/helpers.ts:11-17 | The Basic value round-trips: Base64-decoding, UTF-8-decoding and splitting at the first colon recovers the user-id and password whenever the user-id has no colon. |
| Helpers.ParseBearer | scaffolder-backend-module-bitbucket-cloud/src/actions/helpers.ts:20-22 | A Bearer value parses back to the token it carries, whatever the token is. |
| Helpers.ColonInUsernameIsAmbiguous | scaffolder-backend-module-bitbucket-cloud/src/actions/helpers.ts:11-17 | The username is not checked for a colon, so the logins ("a:b", "c") and ("a", "b:c") derive the same header. |
| Helpers.BitbucketCloudHost | scaffolder-backend-module-bitbucket-cloud/src/actions/helpers.ts:30-32 | The Bitbucket Cloud host is exactly "bitbucket.org". |
| Helpers.ResolveIntegration | scaffolder-backend-module-bitbucket-cloud/src/actions/repo-pipeline-env-vars.ts:19-24 | The lookup succeeds exactly when an integration is registered for "bitbucket.org", the host `getBitucketCloudHost` names. It then returns that host's configuration, and otherwise fails with NoIntegration. |
| Base64.Encode | scaffolder-backend-module-bitbucket-cloud/src/actions/helpers.ts:12-17 | The encoding of n bytes has 4 * ceil(n / 3) characters. |
| Base64.EncodeShape | scaffolder-backend-module-bitbucket-cloud/src/actions/helpers.ts:12-17 | Every character of the encoding is from the alphabet of RFC 4648 Table 1, except the final (3 - n mod 3) mod 3 characters, which are '='. |
| Base64.DecodeEncode | scaffolder-backend-module-bitbucket-cloud/src/actions/helpers.ts:12-17 | Decoding the encoding of any byte sequence gives that sequence back. |
| Base64.EncodeDecode | scaffolder-backend-module-bitbucket-cloud/src/actions/helpers.ts:12-17 | The decoder accepts only canonical text: whatever it accepts is exactly the encoding of what it returns. |
| Base64.EncodeInjective | scaffolder-backend-module-bitbucket-cloud/src/actions/helpers.ts:12-17 | Different byte sequences have different encodings. |
| Base64.EncodeFoob | scaffolder-backend-module-bitbucket-cloud/src/actions/helpers.ts:17 | The test vector of section 10 of RFC 4648: "foob" encodes as "Zm9vYg==". |
| Utf8.Encode | scaffolder-backend-module-bitbucket-cloud/src/actions/helpers.ts:12-15 | The UTF-8 bytes of a string take at least one and at most four bytes per character: in all, at least as many bytes as the string has characters and at most four times as many. |
| Utf8.DecodeEncode | scaffolder-backend-module-bitbucket-cloud/src/actions/helpers.ts:12-15 | The UTF-8 bytes of any string decode back to that string. |
| Utf8.EncodeAppend | scaffolder-backend-module-bitbucket-cloud/src/actions/helpers.ts:12-15 | The bytes of a concatenation are the concatenation of the bytes, so "user:password" encodes part by part. |
| Utf8.EncodeInjective | scaffolder-backend-module-bitbucket-cloud/src/actions/helpers.ts:12-15 | Different strings have different UTF-8 bytes. |
| Utf8.EncodeVectors | scaffolder-backend-module-bitbucket-cloud/src/actions/helpers.ts:12-15 | The examples of section 7 of RFC 3629: "A" U+2262 U+0391 "." is 41 E2 89 A2 CE 91 2E, and U+233B4 is F0 A3 8E B4. One character per row of the table of section 3 is also covered: U+00E9 is C3 A9, U+20AC is E2 82 AC and U+10348 is F0 90 8D 88. |
| Remote.Expect | scaffolder-backend-module-bitbucket-cloud/src/actions/repo-pipeline-vars.ts:145-160 | A response passes exactly when it is a reply with the one expected status. A rejected fetch fails as Unreachable, and any other status fails carrying that status. |
| Variables.VariableBody | scaffolder-backend-module-bitbucket-cloud/src/actions/repo-pipeline-vars.ts:132-138 | The create body starts with type "string" and the fresh uuid. A reader finds under `key`, `value` and `secured` exactly the element's field, or nothing when the element leaves it out, because `JSON.stringify` drops undefined members. The members appear at most once each and in the literal's order, and there are 2 plus one per defined field. |
| Variables.MissingKeyExample | scaffolder-backend-module-bitbucket-cloud/src/actions/repo-pipeline-vars.ts:132-138 | An element without `key` is sent as `{type, uuid, value}`, with no `key` member. |
| Variables.CreateRequest | scaffolder-backend-module-bitbucket-cloud/src/actions/repo-pipeline-vars.ts:130-150 | A create request is a POST to the given variables endpoint with the JSON content type, the derived header and the create body for the element and the fresh id. The environment action builds the same POST at repo-pipeline-env-vars.ts:149-169, with the resolved environment's variables endpoint as the URL. |
| Variables.Plan | scaffolder-backend-module-bitbucket-cloud/src/actions/repo-pipeline-vars.ts:96-106 | There is one planned request per variable, in input order. Request k is the create request for variable k with the k-th generated id. |
| Variables.CreateAll | scaffolder-backend-module-bitbucket-cloud/src/actions/repo-pipeline-vars.ts:96-106 | The loop only appends to what was sent before it, sends at most one request per variable, and sends at least one for a non-empty list. It ends in Success, having sent one request per variable, or in RemoteError. |
| Variables.FailFast | scaffolder-backend-module-bitbucket-cloud/src/actions/repo-pipeline-vars.ts:96-106 | The loop succeeds exactly when every planned request is answered 201, and it then sends the whole plan. Otherwise it stops at the first request not answered 201: it sends the plan up to and including that request and fails with that request's failure. |
| Variables.SentPrefix | scaffolder-backend-module-bitbucket-cloud/src/actions/repo-pipeline-env-vars.ts:114-126 | Whatever the answers, a non-empty prefix of the plan is sent and nothing sent is undone. The whole plan is sent on success. On failure the last request sent is the one that was refused. |
| PipelineConfig.ConfigureRequest | scaffolder-backend-module-bitbucket-cloud/src/actions/repo-pipeline-config.ts:104-111 | The request is a PUT to `{apiBaseUrl}/repositories/{workspace}/{repo}/pipelines_config` with the JSON content type and the derived header, and its body is exactly `{enabled}`. |
| PipelineConfig.ConfigurePipeline | scaffolder-backend-module-bitbucket-cloud/src/actions/repo-pipeline-config.ts:19-128 | At most one request is sent. The invocation fails with ConfigError(NoIntegration) exactly when no integration is registered for "bitbucket.org". It fails with ConfigError(NoAuthorization) exactly when there is one, the input is valid and its credentials give no header. The invocation fails with InputError exactly when workspace or repo is empty or missing, or `enabled` is missing. A valid input with usable credentials sends exactly the PUT to `.../pipelines_config`. It succeeds exactly on status 200; a transport failure gives Unreachable and another status gives that status. |
| PipelineConfig.DisablingIsValid | scaffolder-backend-module-bitbucket-cloud/src/actions/repo-pipeline-config.ts:59-62 | `enabled: false` passes the input check and a missing `enabled` does not. A `false` is sent as the body `{"enabled": false}` built at lines 104-111. |
| PipelineConfig.SameRequestEachTime | scaffolder-backend-module-bitbucket-cloud/src/actions/repo-pipeline-config.ts:102-117 | The request depends on input and configuration only: two invocations send the same request whatever the server answers, and nothing deduplicates them. |
| PipelineConfig.ExampleSendsOnePut | scaffolder-backend-module-bitbucket-cloud/src/actions/repo-pipeline-config.ts:104-118 | With a token login, workspace "w", repo "r" and enabled true, the trace is exactly one PUT to `{apiBaseUrl}/repositories/w/r/pipelines_config` with header "Bearer t" and body `{enabled: true}`. |
| PipelineConfig.EnableExample | scaffolder-backend-module-bitbucket-cloud/src/actions/repo-pipeline-config.ts:123-128 | The same invocation succeeds against a server answering 200 and fails with UnexpectedStatus(500) against one answering 500. |
| PipelineVariables.CreateVariables | scaffolder-backend-module-bitbucket-cloud/src/actions/repo-pipeline-vars.ts:19-106 | ConfigError(NoIntegration) arises exactly when no integration is registered for "bitbucket.org". ConfigError(NoAuthorization) arises exactly when there is one, the input is valid and its credentials give no header. An InputError arises exactly when workspace or repo is falsy or the list is missing or empty, and then nothing is sent. Requests are sent exactly when the input is valid and the credentials usable. The run is the fail-fast run over one POST per variable to `.../pipelines_config/variables`. Every request carries the one header derived for the invocation. |
| PipelineVariables.ExampleRunsLoop | scaffolder-backend-module-bitbucket-cloud/src/actions/repo-pipeline-vars.ts:89-105 | With a token login and a valid input, the action is the create loop on the repository's variables endpoint with the header "Bearer t". |
| PipelineVariables.SecondFailsExample | scaffolder-backend-module-bitbucket-cloud/src/actions/repo-pipeline-vars.ts:96-160 | For variables A and B where A is answered 201 and B is answered 400, both requests are sent and the outcome is UnexpectedStatus(400). A's body has no `secured` member. |
| EnvironmentVariables.Lower | scaffolder-backend-module-bitbucket-cloud/src/actions/repo-pipeline-env-vars.ts:227 | Lower-casing keeps the length and maps each character on its own, A-Z to a-z. |
| EnvironmentVariables.FindIndex | scaffolder-backend-module-bitbucket-cloud/src/actions/repo-pipeline-env-vars.ts:227 | The result is the index of an entry whose lower-cased name equals the lower-cased environment, with no earlier entry matching. None means no entry matches. |
| EnvironmentVariables.EnvironmentUuid | scaffolder-backend-module-bitbucket-cloud/src/actions/repo-pipeline-env-vars.ts:227-233 | A uuid is found exactly when the first matching entry has a non-empty uuid. The uuid found is that entry's. |
| EnvironmentVariables.LaterEntriesIgnored | scaffolder-backend-module-bitbucket-cloud/src/actions/repo-pipeline-env-vars.ts:227 | Once some entry matches, appending any further entries changes neither the index found nor the uuid. |
| EnvironmentVariables.MatchesUpToCase | scaffolder-backend-module-bitbucket-cloud/src/actions/repo-pipeline-env-vars.ts:227 | An entry matches an environment name exactly when the two names have the same length and each pair of characters is equal or the same ASCII letter in the other case. |
| EnvironmentVariables.LowerIdempotent | scaffolder-backend-module-bitbucket-cloud/src/actions/repo-pipeline-env-vars.ts:227 | Lower-casing leaves no character in A-Z, and lower-casing again changes nothing. |
| EnvironmentVariables.CaseInsensitive | scaffolder-backend-module-bitbucket-cloud/src/actions/repo-pipeline-env-vars.ts:227 | Two environment names that differ only in the case of ASCII letters resolve to the same uuid, or both to none. |
| EnvironmentVariables.LookupExample | scaffolder-backend-module-bitbucket-cloud/src/actions/repo-pipeline-env-vars.ts:227-233 | [{Production, E1}] looked up as "production" gives E1, and looked up as "staging" gives nothing. |
| EnvironmentVariables.EmptyUuidExample | scaffolder-backend-module-bitbucket-cloud/src/actions/repo-pipeline-env-vars.ts:227-233 | A first match with an empty or missing uuid is not found. A later entry with the same name and a uuid is not consulted. |
| EnvironmentVariables.ListRequest | scaffolder-backend-module-bitbucket-cloud/src/actions/repo-pipeline-env-vars.ts:200-213 | The listing request is a GET without a body to `{apiBaseUrl}/repositories/{workspace}/{repo}/environments`, carrying the derived header and the JSON content type. |
| EnvironmentVariables.ResolveEnvironment | scaffolder-backend-module-bitbucket-cloud/src/actions/repo-pipeline-env-vars.ts:208-235 | The lookup yields a uuid exactly when the listing is answered 200 with a well-formed list holding a usable first match. A transport failure gives Unreachable, another status gives that status, and a malformed body gives MalformedListing. No usable match gives EnvironmentNotFound, naming the environment. |
| EnvironmentVariables.CreateEnvironmentVariables | scaffolder-backend-module-bitbucket-cloud/src/actions/repo-pipeline-env-vars.ts:19-126 | ConfigError(NoIntegration) arises exactly when no integration is registered for "bitbucket.org". ConfigError(NoAuthorization) arises exactly when there is one, the input is valid and its credentials give no header. An InputError arises exactly when workspace, repo or environment is falsy or the list is missing or empty, and then nothing is sent. Otherwise, with usable credentials, the first request is the GET of `.../environments`. A failed lookup sends nothing more. A successful one is followed by the fail-fast run over one POST per variable to the resolved environment's variables endpoint. All requests carry the same header. |
| EnvironmentVariables.ResolvedExample | scaffolder-backend-module-bitbucket-cloud/src/actions/repo-pipeline-env-vars.ts:103-169 | With [{Production, E1}] listed and 201 answered, "production" with one variable sends the GET of `{apiBaseUrl}/repositories/w/r/environments`, then a POST to `.../deployments_config/environments/E1/variables`, and succeeds. |
| EnvironmentVariables.NotFoundExample | scaffolder-backend-module-bitbucket-cloud/src/actions/repo-pipeline-env-vars.ts:229-233 | When only "staging" is listed, "production" sends just the GET and fails with EnvironmentNotFound("production"). |

## Left out

- The `fetch` transport, `response.statusText`, `response.text()` and the wording of every error message. The transport is the oracle, and an error is its kind plus the status or environment it names.
- `uuidv4()`: the ids are a parameter `ids`, where `ids(k)` is the id of the k-th created variable. Uniqueness and randomness are not modelled.
- JSON text: request bodies are JSON values (`Json`), not the text `JSON.stringify` prints, and member order follows the object literal. The environment listing arrives already parsed as a list of (name, uuid) entries. A body the parser cannot read as such a list is `None`, and the action reports it as MalformedListing. The source throws a TypeError only when `values` is not an array, or when an entry at or before the first match has no string `name`. A malformed entry after the first match is outside the model: the source never looks at it, but the model's parsed listing has no place for it. So is an entry whose `uuid` is present but not a string. The source never reads such a uuid before the first match, and at the first match it puts a truthy non-string uuid such as `7` straight into the POST URL (repo-pipeline-env-vars.ts:167 and 227). The model's parser can only reject such a body, which the action reports as MalformedListing.
- EnvironmentVariables.Lower: folds only A-Z. JavaScript's `toLowerCase` also folds non-ASCII letters, and some of those change the length.
- Helpers.AuthorizationHeader: the Basic round trip is stated only for usernames without a colon. With a colon the value is still the Base64 of "user:password" (Helpers.TokenIgnored), but it cannot be split back unambiguously (Helpers.ColonInUsernameIsAmbiguous).
- Variables.CreateAll: its own contract states only the shape of the run. The full fail-fast characterisation is the separate lemma Variables.FailFast.
- Strings are sequences of Unicode scalar values. JavaScript strings may hold lone UTF-16 surrogates, which `Buffer.from` replaces by U+FFFD. That case is not modelled.
- The integration lookup happens when an action is created. Here it happens at the start of each invocation, and a missing integration becomes ConfigError(NoIntegration) with nothing sent.
- Logging (`ctx.logger`, `console.log`) has no effect on the outcome.
- The JSON schemas of the action inputs are enforced by the host. The model relies on their field types (`enabled` is a boolean or absent, strings are strings, `secured` is a boolean) but not on their `required` lists. A field they require may still be missing: workspace, repo, `enabled`, or an element's `key` or `value`. The model follows the handlers' own checks, and an element without `key` or `value` is sent without that member (Variables.MissingKeyExample). An `enabled: null`, which passes the `=== undefined` check at repo-pipeline-config.ts:60, is outside the model.
- `module.ts` (registration with the host plugin) and the three `*-examples.ts` files (static YAML documentation) hold no logic.
- Pagination of the environment listing: the source reads only the first page's `values`, and so does the model.

=== FILE: base64.dfy ===
/** The "base64" encoding of section 4 of RFC 4648 (alphabet of Table 1,
    `=` padding), as Node's `Buffer.toString('base64')` produces it, together
    with a strict decoder that accepts exactly the encoder's outputs. */
module Base64 {
  import opened Wrappers
  import opened Bytes

  type sextet = x: int | 0 <= x < 64

  const Pad: char := '='

  /** The 64 characters of the alphabet of RFC 4648, Table 1. */
  predicate IsAlphabetChar(c: char) {
    || 'A' <= c <= 'Z'
    || 'a' <= c <= 'z'
    || '0' <= c <= '9'
    || c == '+'
    || c == '/'
  }

  /** Table 1 of RFC 4648: value 0..25 is A..Z, 26..51 is a..z, 52..61 is 0..9,
      62 is '+', 63 is '/'. */
  function CharOf(v: sextet): (c: char)
    ensures IsAlphabetChar(c)
  {
    if v < 26 then ('A' as int + v) as char
    else if v < 52 then ('a' as int + (v - 26)) as char
    else if v < 62 then ('0' as int + (v - 52)) as char
    else if v == 62 then '+'
    else '/'
  }

  /** The inverse of Table 1. */
  function ValueOf(c: char): (v: sextet)
    requires IsAlphabetChar(c)
    ensures CharOf(v) == c
  {
    if 'A' <= c <= 'Z' then c as int - 'A' as int
    else if 'a' <= c <= 'z' then c as int - 'a' as int + 26
    else if '0' <= c <= '9' then c as int - '0' as int + 52
    else if c == '+' then 62
    else 63
  }

  /** Table 1 is a bijection: no two values share a character. */
  lemma ValueOfCharOf(v: sextet)
    ensures ValueOf(CharOf(v)) == v
  {
    var c := CharOf(v);
    assert CharOf(ValueOf(c)) == c;
  }

  /** Number of `=` characters that end the encoding of `n` bytes. */
  function PadCount(n: nat): (p: nat)
    ensures p <= 2
    ensures (n + p) % 3 == 0
  {
    (3 - n % 3) % 3
  }

  /** The shape section 4 of RFC 4648 gives an encoded text with `pad` padding
      characters: every character before the padding is in the alphabet and
      the last `pad` characters are `=`. */
  predicate Shaped(s: string, pad: nat) {
    && pad <= |s|
    && (forall i :: 0 <= i < |s| - pad ==> IsAlphabetChar(s[i]))
    && (forall i :: |s| - pad <= i < |s| ==> s[i] == Pad)
  }

  /** Three bytes (24 bits) become four sextets, most significant first. */
  function EncodeGroup(b0: byte, b1: byte, b2: byte): string {
    [CharOf(b0 / 4), CharOf(b0 % 4 * 16 + b1 / 16), CharOf(b1 % 16 * 4 + b2 / 64), CharOf(b2 % 64)]
  }

  /** A final quantum of one byte: two characters and two `=`. */
  function EncodeOne(b0: byte): string {
    [CharOf(b0 / 4), CharOf(b0 % 4 * 16), Pad, Pad]
  }

  /** A final quantum of two bytes: three characters and one `=`. */
  function EncodeTwo(b0: byte, b1: byte): string {
    [CharOf(b0 / 4), CharOf(b0 % 4 * 16 + b1 / 16), CharOf(b1 % 16 * 4), Pad]
  }

  /** Base64 text of `b`: 4 * ceil(n / 3) characters for `n` bytes, all from
      the alphabet except the final (3 - n mod 3) mod 3, which are `=`. */
  function Encode(b: seq<byte>): (s: string)
    ensures |s| == 4 * ((|b| + 2) / 3)
    decreases |b|
  {
    if |b| == 0 then ""
    else if |b| == 1 then EncodeOne(b[0])
    else if |b| == 2 then EncodeTwo(b[0], b[1])
    else EncodeGroup(b[0], b[1], b[2]) + Encode(b[3..])
  }

  /** Prepending a full group of alphabet characters keeps the shape. */
  lemma ShapedPrepend(g: string, t: string, pad: nat)
    requires forall i :: 0 <= i < |g| ==> IsAlphabetChar(g[i])
    requires Shaped(t, pad)
    ensures Shaped(g + t, pad)
  {
    var s := g + t;
    forall i | 0 <= i < |s| - pad
      ensures IsAlphabetChar(s[i])
    {
      if i >= |g| {
        assert s[i] == t[i - |g|];
      }
    }
  }

  /** Every character of the encoding is in the alphabet, except the final
      (3 - n mod 3) mod 3 characters, which are `=`. */
  lemma {:induction false} EncodeShape(b: seq<byte>)
    ensures Shaped(Encode(b), PadCount(|b|))
    decreases |b|
  {
    if |b| >= 3 {
      EncodeShape(b[3..]);
      EncodeShapeStep(b);
    }
  }

  /** One full group in front of a shaped text keeps it shaped. */
  lemma EncodeShapeStep(b: seq<byte>)
    requires |b| >= 3
    requires Shaped(Encode(b[3..]), PadCount(|b| - 3))
    ensures Shaped(Encode(b), PadCount(|b|))
  {
    PadCountStep(|b|);
    var g := EncodeGroup(b[0], b[1], b[2]);
    GroupInAlphabet(b[0], b[1], b[2]);
    ShapedPrepend(g, Encode(b[3..]), PadCount(|b|));
  }

  lemma PadCountStep(n: nat)
    requires n >= 3
    ensures PadCount(n - 3) == PadCount(n)
  {
    assert (n - 3) % 3 == n % 3;
  }

  lemma GroupInAlphabet(b0: byte, b1: byte, b2: byte)
    ensures forall i :: 0 <= i < |EncodeGroup(b0, b1, b2)| ==> IsAlphabetChar(EncodeGroup(b0, b1, b2)[i])
  {
  }

  /** Four sextets (24 bits) become three bytes. */
  function PackGroup(v0: sextet, v1: sextet, v2: sextet, v3: sextet): (g: seq<byte>)
    ensures |g| == 3
  {
    [v0 * 4 + v1 / 16, v1 % 16 * 16 + v2 / 4, v2 % 4 * 64 + v3]
  }

  /** Three sextets of a final quantum become two bytes, dropping the two
      pad bits of the last sextet. */
  function PackTwo(v0: sextet, v1: sextet, v2: sextet): (g: seq<byte>)
    ensures |g| == 2
  {
    [v0 * 4 + v1 / 16, v1 % 16 * 16 + v2 / 4]
  }

  /** Two sextets of a final quantum become one byte, dropping the four pad
      bits of the second sextet. */
  function PackOne(v0: sextet, v1: sextet): (g: seq<byte>)
    ensures |g| == 1
  {
    [v0 * 4 + v1 / 16]
  }

  /** Four alphabet characters back to three bytes. */
  function DecodeGroup(c0: char, c1: char, c2: char, c3: char): Option<seq<byte>> {
    if IsAlphabetChar(c0) && IsAlphabetChar(c1) && IsAlphabetChar(c2) && IsAlphabetChar(c3) then
      Some(PackGroup(ValueOf(c0), ValueOf(c1), ValueOf(c2), ValueOf(c3)))
    else None
  }

  /** The last quantum, which may carry one or two `=`. Pad bits that the
      encoder always leaves zero must be zero. */
  function DecodeFinal(c0: char, c1: char, c2: char, c3: char): Option<seq<byte>> {
    if c2 == Pad && c3 == Pad then
      if IsAlphabetChar(c0) && IsAlphabetChar(c1) && ValueOf(c1) % 16 == 0 then
        Some(PackOne(ValueOf(c0), ValueOf(c1)))
      else None
    else if c3 == Pad then
      if IsAlphabetChar(c0) && IsAlphabetChar(c1) && IsAlphabetChar(c2) && ValueOf(c2) % 4 == 0 then
        Some(PackTwo(ValueOf(c0), ValueOf(c1), ValueOf(c2)))
      else None
    else DecodeGroup(c0, c1, c2, c3)
  }

  /** Strict decoder: the length must be a multiple of four, padding may only
      end the text, and pad bits must be zero. */
  function Decode(s: string): (r: Option<seq<byte>>)
    ensures r.Some? ==> |s| % 4 == 0
    decreases |s|
  {
    if |s| == 0 then Some([])
    else if |s| < 4 then None
    else if |s| == 4 then DecodeFinal(s[0], s[1], s[2], s[3])
    else
      match DecodeGroup(s[0], s[1], s[2], s[3])
      case None => None
      case Some(head) =>
        match Decode(s[4..])
        case None => None
        case Some(tail) => Some(head + tail)
  }

  /** Packing `hi` above a `k`-valued `lo` and splitting it again gives both back. */
  lemma Split(hi: int, lo: int, k: int)
    requires k == 4 || k == 16 || k == 64
    requires 0 <= lo < k
    ensures (hi * k + lo) / k == hi && (hi * k + lo) % k == lo
  {
  }

  lemma GroupRoundTrip(b0: byte, b1: byte, b2: byte)
    ensures DecodeGroup(EncodeGroup(b0, b1, b2)[0], EncodeGroup(b0, b1, b2)[1],
                        EncodeGroup(b0, b1, b2)[2], EncodeGroup(b0, b1, b2)[3]) == Some([b0, b1, b2])
  {
    var v0, v1, v2, v3 := b0 / 4, b0 % 4 * 16 + b1 / 16, b1 % 16 * 4 + b2 / 64, b2 % 64;
    ValueOfCharOf(v0);
    ValueOfCharOf(v1);
    ValueOfCharOf(v2);
    ValueOfCharOf(v3);
    Split(b0 % 4, b1 / 16, 16);
    Split(b1 % 16, b2 / 64, 4);
  }

  lemma OneRoundTrip(b0: byte)
    ensures var s := EncodeOne(b0); DecodeFinal(s[0], s[1], s[2], s[3]) == Some([b0])
  {
    ValueOfCharOf(b0 / 4);
    ValueOfCharOf(b0 % 4 * 16);
  }

  lemma TwoRoundTrip(b0: byte, b1: byte)
    ensures var s := EncodeTwo(b0, b1); DecodeFinal(s[0], s[1], s[2], s[3]) == Some([b0, b1])
  {
    var v0, v1, v2 := b0 / 4, b0 % 4 * 16 + b1 / 16, b1 % 16 * 4;
    ValueOfCharOf(v0);
    ValueOfCharOf(v1);
    ValueOfCharOf(v2);
    Split(b0 % 4, b1 / 16, 16);
  }

  /** Decoding a full group followed by more text decodes the group, then the rest. */
  lemma DecodeAppend(g: string, t: string)
    requires |g| == 4 && |t| > 0
    ensures Decode(g + t) == match DecodeGroup(g[0], g[1], g[2], g[3])
      case None => None
      case Some(head) => (match Decode(t) case None => None case Some(tail) => Some(head + tail))
  {
    var s := g + t;
    assert s[4..] == t;
    assert s[0] == g[0] && s[1] == g[1] && s[2] == g[2] && s[3] == g[3];
  }

  /** A text of exactly one quantum is decoded as the final quantum. */
  lemma DecodeSingle(s: string)
    requires |s| == 4
    ensures Decode(s) == DecodeFinal(s[0], s[1], s[2], s[3])
  {
  }

  lemma ShortOne(b: seq<byte>)
    requires |b| == 1
    ensures Decode(Encode(b)) == Some(b)
  {
    var s := Encode(b);
    DecodeSingle(s);
    OneRoundTrip(b[0]);
    assert b == [b[0]];
  }

  lemma ShortTwo(b: seq<byte>)
    requires |b| == 2
    ensures Decode(Encode(b)) == Some(b)
  {
    var s := Encode(b);
    DecodeSingle(s);
    TwoRoundTrip(b[0], b[1]);
    assert b == [b[0], b[1]];
  }

  lemma ShortThree(b: seq<byte>)
    requires |b| == 3
    ensures Decode(Encode(b)) == Some(b)
  {
    var g := EncodeGroup(b[0], b[1], b[2]);
    EncodeThree(b);
    DecodeSingle(g);
    assert IsAlphabetChar(g[3]);
    GroupRoundTrip(b[0], b[1], b[2]);
    Triple(b);
  }

  lemma Triple(b: seq<byte>)
    requires |b| == 3
    ensures b == [b[0], b[1], b[2]]
  {
  }

  lemma EncodeThree(b: seq<byte>)
    requires |b| == 3
    ensures Encode(b) == EncodeGroup(b[0], b[1], b[2])
  {
    assert b[3..] == [];
    assert Encode(b) == EncodeGroup(b[0], b[1], b[2]) + Encode([]);
  }

  lemma SplitHead(b: seq<byte>)
    requires |b| >= 3
    ensures b == [b[0], b[1], b[2]] + b[3..]
  {
  }

  /** The inductive step of the round trip: one more full group in front. */
  lemma DecodeEncodeStep(b: seq<byte>)
    requires |b| > 3
    requires Decode(Encode(b[3..])) == Some(b[3..])
    ensures Decode(Encode(b)) == Some(b)
  {
    var g, t := EncodeGroup(b[0], b[1], b[2]), Encode(b[3..]);
    var head: seq<byte> := [b[0], b[1], b[2]];
    assert Encode(b) == g + t;
    GroupRoundTrip(b[0], b[1], b[2]);
    assert DecodeGroup(g[0], g[1], g[2], g[3]) == Some(head);
    DecodeAppend(g, t);
    assert Decode(g + t) == Some(head + b[3..]);
    SplitHead(b);
  }

  /** Decoding undoes encoding. */
  lemma {:induction false} DecodeEncode(b: seq<byte>)
    ensures Decode(Encode(b)) == Some(b)
    decreases |b|
  {
    if |b| == 0 {
    } else if |b| == 1 {
      ShortOne(b);
    } else if |b| == 2 {
      ShortTwo(b);
    } else if |b| == 3 {
      ShortThree(b);
    } else {
      DecodeEncode(b[3..]);
      DecodeEncodeStep(b);
    }
  }

  /** Packing four sextets into three bytes and encoding those gives the
      four characters of the sextets back. */
  lemma RepackGroup(v0: sextet, v1: sextet, v2: sextet, v3: sextet)
    ensures var g := PackGroup(v0, v1, v2, v3);
      EncodeGroup(g[0], g[1], g[2]) == [CharOf(v0), CharOf(v1), CharOf(v2), CharOf(v3)]
  {
    var g := PackGroup(v0, v1, v2, v3);
    Split(v0, v1 / 16, 4);
    Split(v1 % 16, v2 / 4, 16);
    Split(v2 % 4, v3, 64);
    assert g[0] / 4 == v0 && g[0] % 4 * 16 + g[1] / 16 == v1 && g[1] % 16 * 4 + g[2] / 64 == v2 && g[2] % 64 == v3;
  }

  /** The same for a final quantum of two bytes, whose last sextet has its
      two low bits clear. */
  lemma RepackTwo(v0: sextet, v1: sextet, v2: sextet)
    requires v2 % 4 == 0
    ensures var g := PackTwo(v0, v1, v2);
      EncodeTwo(g[0], g[1]) == [CharOf(v0), CharOf(v1), CharOf(v2), Pad]
  {
    var g := PackTwo(v0, v1, v2);
    Split(v0, v1 / 16, 4);
    Split(v1 % 16, v2 / 4, 16);
    assert g[0] / 4 == v0 && g[0] % 4 * 16 + g[1] / 16 == v1 && g[1] % 16 * 4 == v2;
  }

  /** And for a final quantum of one byte, whose second sextet has its four
      low bits clear. */
  lemma RepackOne(v0: sextet, v1: sextet)
    requires v1 % 16 == 0
    ensures var g := PackOne(v0, v1);
      EncodeOne(g[0]) == [CharOf(v0), CharOf(v1), Pad, Pad]
  {
    var g := PackOne(v0, v1);
    Split(v0, v1 / 16, 4);
    assert g[0] / 4 == v0 && g[0] % 4 * 16 == v1;
  }

  lemma GroupCanonical(c0: char, c1: char, c2: char, c3: char)
    requires DecodeGroup(c0, c1, c2, c3).Some?
    ensures var g := DecodeGroup(c0, c1, c2, c3).value;
      |g| == 3 && EncodeGroup(g[0], g[1], g[2]) == [c0, c1, c2, c3]
  {
    RepackGroup(ValueOf(c0), ValueOf(c1), ValueOf(c2), ValueOf(c3));
  }

  lemma OneCanonical(c0: char, c1: char)
    requires DecodeFinal(c0, c1, Pad, Pad).Some?
    ensures var b := DecodeFinal(c0, c1, Pad, Pad).value;
      |b| == 1 && Encode(b) == [c0, c1, Pad, Pad]
  {
    RepackOne(ValueOf(c0), ValueOf(c1));
  }

  lemma TwoCanonical(c0: char, c1: char, c2: char)
    requires c2 != Pad
    requires DecodeFinal(c0, c1, c2, Pad).Some?
    ensures var b := DecodeFinal(c0, c1, c2, Pad).value;
      |b| == 2 && Encode(b) == [c0, c1, c2, Pad]
  {
    RepackTwo(ValueOf(c0), ValueOf(c1), ValueOf(c2));
  }

  lemma FinalCanonical(c0: char, c1: char, c2: char, c3: char)
    requires DecodeFinal(c0, c1, c2, c3).Some?
    ensures var b := DecodeFinal(c0, c1, c2, c3).value;
      1 <= |b| <= 3 && Encode(b) == [c0, c1, c2, c3]
  {
    if c2 == Pad && c3 == Pad {
      OneCanonical(c0, c1);
    } else if c3 == Pad {
      TwoCanonical(c0, c1, c2);
    } else {
      GroupCanonical(c0, c1, c2, c3);
      var g := DecodeGroup(c0, c1, c2, c3).value;
      assert Encode(g) == EncodeGroup(g[0], g[1], g[2]) + Encode([]);
    }
  }

  /** The decoder is strict: it accepts a text only if that text is exactly
      what the encoder produces for the bytes it returns. */
  lemma {:induction false} EncodeDecode(s: string)
    requires Decode(s).Some?
    ensures Encode(Decode(s).value) == s
    decreases |s|
  {
    if |s| == 0 {
    } else if |s| == 4 {
      FinalCanonical(s[0], s[1], s[2], s[3]);
    } else {
      EncodeDecode(s[4..]);
      EncodeDecodeStep(s);
    }
  }

  /** The inductive step of strictness: one more full group in front. */
  lemma EncodeDecodeStep(s: string)
    requires |s| > 4 && Decode(s).Some?
    ensures Decode(s[4..]).Some?
    ensures Encode(Decode(s[4..]).value) == s[4..] ==> Encode(Decode(s).value) == s
  {
    var g := DecodeGroup(s[0], s[1], s[2], s[3]).value;
    var t := Decode(s[4..]).value;
    assert Decode(s).value == g + t;
    if Encode(t) == s[4..] {
      GroupCanonical(s[0], s[1], s[2], s[3]);
      EncodePrepend(g, t);
      SplitQuad(s);
    }
  }

  lemma EncodePrepend(g: seq<byte>, t: seq<byte>)
    requires |g| == 3 && |t| > 0
    ensures Encode(g + t) == EncodeGroup(g[0], g[1], g[2]) + Encode(t)
  {
    var b := g + t;
    assert b[3..] == t;
    assert b[0] == g[0] && b[1] == g[1] && b[2] == g[2];
  }

  lemma SplitQuad(s: string)
    requires |s| >= 4
    ensures s == [s[0], s[1], s[2], s[3]] + s[4..]
  {
  }

  /** Encoding is injective, so the header carries the credential bytes
      unambiguously. */
  lemma EncodeInjective(a: seq<byte>, b: seq<byte>)
    requires Encode(a) == Encode(b)
    ensures a == b
  {
    DecodeEncode(a);
    DecodeEncode(b);
  }

  /** Worked example of section 10 of RFC 4648: "foob" is "Zm9vYg==". */
  lemma EncodeFoob()
    ensures Encode(['f' as int, 'o' as int, 'o' as int, 'b' as int]) == "Zm9vYg=="
  {
    var b: seq<byte> := ['f' as int, 'o' as int, 'o' as int, 'b' as int];
    assert b[3..] == ['b' as int];
    assert EncodeGroup('f' as int, 'o' as int, 'o' as int) == "Zm9v" by {
      assert CharOf(25) == 'Z' && CharOf(38) == 'm' && CharOf(61) == '9' && CharOf(47) == 'v';
    }
    assert EncodeOne('b' as int) == "Yg==" by {
      assert CharOf(24) == 'Y' && CharOf(32) == 'g';
    }
  }
}

=== FILE: bytes.dfy ===
/** The octet type both codecs work on. */
module Bytes {
  type byte = x: int | 0 <= x < 256
}

=== FILE: environment_variables.dfy ===
/** The `bitbucketCloud:repositories:createEnvironmentVariables` action:
    resolve a deployment environment's name to its uuid with one GET, then
    create the variables in that environment one by one. */
module EnvironmentVariables {
  import opened Wrappers
  import opened Helpers
  import opened Remote
  import opened Variables

  /** The action's input as the host hands it over; any field may be
      missing. */
  datatype EnvVarsInput = EnvVarsInput(workspace: Option<string>, repo: Option<string>, environment: Option<string>,
                                       variables: Option<seq<Variable>>)

  /** The only status the environment listing may answer with. */
  const Listed: int := 200

  /** The handler's input check: truthy workspace, repo and environment,
      and a defined, non-empty variable list. */
  predicate ValidInput(input: EnvVarsInput) {
    && Truthy(input.workspace)
    && Truthy(input.repo)
    && Truthy(input.environment)
    && input.variables.Some?
    && |input.variables.value| > 0
  }

  // Environment lookup

  /** `toLowerCase` on one character, restricted to ASCII letters. */
  function LowerChar(c: char): (d: char)
    ensures 'A' <= c <= 'Z' ==> d as int == c as int + 32
    ensures !('A' <= c <= 'Z') ==> d == c
  {
    if 'A' <= c <= 'Z' then (c as int + 32) as char else c
  }

  function Lower(s: string): (t: string)
    ensures |t| == |s|
    ensures forall i :: 0 <= i < |s| ==> t[i] == LowerChar(s[i])
  {
    seq(|s|, i requires 0 <= i < |s| => LowerChar(s[i]))
  }

  /** The `find` callback: names compared after lower-casing both sides. */
  predicate NameMatches(entry: EnvEntry, environment: string) {
    Lower(entry.name) == Lower(environment)
  }

  /** `Array.prototype.find`: the index of the first matching entry. */
  function FindIndex(entries: seq<EnvEntry>, environment: string): (r: Option<nat>)
    ensures r.Some? ==> r.value < |entries| && NameMatches(entries[r.value], environment)
    ensures r.Some? ==> forall j :: 0 <= j < r.value ==> !NameMatches(entries[j], environment)
    ensures r.None? ==> forall j :: 0 <= j < |entries| ==> !NameMatches(entries[j], environment)
    decreases |entries|
  {
    if |entries| == 0 then None
    else if NameMatches(entries[0], environment) then Some(0)
    else
      match FindIndex(entries[1..], environment)
      case None => None
      case Some(i) => Some(i + 1)
  }

  /** `values.find(...)?.uuid`, then the truthiness check: the uuid of the
      first entry whose name matches, if that uuid is a non-empty string. */
  function EnvironmentUuid(entries: seq<EnvEntry>, environment: string): (r: Option<string>)
    ensures r.Some? <==> exists i :: 0 <= i < |entries| && IsFirstMatch(entries, environment, i)
                                   && Truthy(entries[i].uuid)
    ensures r.Some? ==> exists i :: 0 <= i < |entries| && IsFirstMatch(entries, environment, i)
                                  && entries[i].uuid == Some(r.value) && r.value != ""
  {
    match FindIndex(entries, environment)
    case None => None
    case Some(i) =>
      assert IsFirstMatch(entries, environment, i);
      if Truthy(entries[i].uuid) then Some(entries[i].uuid.value) else None
  }

  /** Entry i matches and no earlier entry does. */
  ghost predicate IsFirstMatch(entries: seq<EnvEntry>, environment: string, i: nat)
    requires i < |entries|
  {
    NameMatches(entries[i], environment) && forall j :: 0 <= j < i ==> !NameMatches(entries[j], environment)
  }

  /** Entries after the first match are never consulted: appending any
      entries leaves the result unchanged once a match exists. */
  lemma {:induction false} LaterEntriesIgnored(entries: seq<EnvEntry>, more: seq<EnvEntry>, environment: string)
    requires exists i :: 0 <= i < |entries| && NameMatches(entries[i], environment)
    ensures FindIndex(entries + more, environment) == FindIndex(entries, environment)
    ensures EnvironmentUuid(entries + more, environment) == EnvironmentUuid(entries, environment)
    decreases |entries|
  {
    if NameMatches(entries[0], environment) {
      assert (entries + more)[0] == entries[0];
    } else {
      assert (entries + more)[0] == entries[0];
      assert (entries + more)[1..] == entries[1..] + more;
      var i :| 0 <= i < |entries| && NameMatches(entries[i], environment);
      assert NameMatches(entries[1..][i - 1], environment);
      LaterEntriesIgnored(entries[1..], more, environment);
    }
  }

  /** Two characters are the same letter up to case: equal, or an ASCII
      upper-case letter and its lower-case partner, 32 code points apart. */
  predicate SameLetter(c: char, d: char) {
    || c == d
    || ('A' <= c <= 'Z' && d as int == c as int + 32)
    || ('a' <= c <= 'z' && d as int == c as int - 32)
  }

  /** Two strings that differ at most in the case of ASCII letters. */
  predicate SameUpToCase(a: string, b: string) {
    |a| == |b| && forall i :: 0 <= i < |a| ==> SameLetter(a[i], b[i])
  }

  lemma LowerCharAlike(c: char, d: char)
    ensures LowerChar(c) == LowerChar(d) <==> SameLetter(c, d)
  {
  }

  /** The match of the `find` callback, described without any fold: a name
      matches exactly when it spells the environment up to the case of
      ASCII letters. */
  lemma MatchesUpToCase(entry: EnvEntry, environment: string)
    ensures NameMatches(entry, environment) <==> SameUpToCase(entry.name, environment)
  {
    var a, b := Lower(entry.name), Lower(environment);
    if SameUpToCase(entry.name, environment) {
      forall i | 0 <= i < |a|
        ensures a[i] == b[i]
      {
        LowerCharAlike(entry.name[i], environment[i]);
      }
    }
    if a == b {
      forall i | 0 <= i < |entry.name|
        ensures SameLetter(entry.name[i], environment[i])
      {
        assert a[i] == b[i];
        LowerCharAlike(entry.name[i], environment[i]);
      }
    }
  }

  /** Folding leaves no upper-case ASCII letter, and folding twice is
      folding once. */
  lemma LowerIdempotent(s: string)
    ensures forall i :: 0 <= i < |Lower(s)| ==> !('A' <= Lower(s)[i] <= 'Z')
    ensures Lower(Lower(s)) == Lower(s)
  {
  }

  /** Environment names that fold alike find the same entry. */
  lemma {:induction false} SameFoldSameIndex(entries: seq<EnvEntry>, environment: string, other: string)
    requires Lower(environment) == Lower(other)
    ensures FindIndex(entries, environment) == FindIndex(entries, other)
    decreases |entries|
  {
    if |entries| > 0 {
      SameFoldSameIndex(entries[1..], environment, other);
    }
  }

  /** The lookup is case-insensitive: environment names that differ only in
      the case of ASCII letters resolve to the same uuid. */
  lemma CaseInsensitive(entries: seq<EnvEntry>, environment: string, other: string)
    requires SameUpToCase(environment, other)
    ensures EnvironmentUuid(entries, environment) == EnvironmentUuid(entries, other)
  {
    MatchesUpToCase(EnvEntry(environment, None), other);
    SameFoldSameIndex(entries, environment, other);
  }

  // The action

  function EnvironmentsUrl(apiBaseUrl: string, workspace: string, repo: string): string {
    RepositoryUrl(apiBaseUrl, workspace, repo) + "/environments"
  }

  function EnvironmentVariablesUrl(apiBaseUrl: string, workspace: string, repo: string, environmentUuid: string): string {
    RepositoryUrl(apiBaseUrl, workspace, repo) + "/deployments_config/environments/" + environmentUuid + "/variables"
  }

  /** getRepositoryEnvironmentUuid's request: a GET without body. */
  function ListRequest(apiBaseUrl: string, workspace: string, repo: string, authorization: string): (q: Request)
    ensures q.verb == GET && q.body == None
    ensures q.url == RepositoryUrl(apiBaseUrl, workspace, repo) + "/environments"
    ensures q.authorization == authorization && q.contentType == ContentType
  {
    Request(GET, EnvironmentsUrl(apiBaseUrl, workspace, repo), authorization, ContentType, None)
  }

  /** How the lookup ends, given the answer to the listing request. */
  function ResolveEnvironment(response: Response, environment: string): (r: Result<string, Failure>)
    ensures r.Ok? <==> response.Reply? && response.status == Listed && response.listing.Some?
                       && EnvironmentUuid(response.listing.value, environment).Some?
    ensures r.Ok? ==> r.value == EnvironmentUuid(response.listing.value, environment).value
    ensures response.TransportFailure? ==> r == Err(Unreachable)
    ensures response.Reply? && response.status != Listed ==> r == Err(UnexpectedStatus(response.status))
    ensures response.Reply? && response.status == Listed && response.listing.None? ==> r == Err(MalformedListing)
    ensures (response.Reply? && response.status == Listed && response.listing.Some?
             && EnvironmentUuid(response.listing.value, environment).None?) ==> r == Err(EnvironmentNotFound(environment))
  {
    match Expect(response, Listed)
    case Some(failure) => Err(failure)
    case None =>
      match response.listing
      case None => Err(MalformedListing)
      case Some(entries) =>
        match EnvironmentUuid(entries, environment)
        case None => Err(EnvironmentNotFound(environment))
        case Some(uuid) => Ok(uuid)
  }

  /** The whole action: integration lookup, input check, one header
      derivation, the environment lookup, then the fail-fast create loop on
      the resolved environment. `ids` stands for the successive `uuidv4()`
      results. */
  function CreateEnvironmentVariables(integrations: map<string, CloudConfig>, input: EnvVarsInput, ids: nat -> string,
                                      oracle: Oracle): (r: Run)
    ensures r.outcome.InputError? <==> BitbucketCloudHost() in integrations && !ValidInput(input)
    ensures r.outcome == ConfigError(NoIntegration) <==> BitbucketCloudHost() !in integrations
    ensures r.outcome == ConfigError(NoAuthorization) <==>
      && BitbucketCloudHost() in integrations
      && ValidInput(input)
      && !integrations[BitbucketCloudHost()].credentials.IsUsable()
    ensures r.outcome.InputError? || r.outcome.ConfigError? ==> r.trace == []
    ensures r.trace != [] <==>
      && BitbucketCloudHost() in integrations
      && ValidInput(input)
      && integrations[BitbucketCloudHost()].credentials.IsUsable()
    ensures r.trace != [] ==>
      var config := integrations[BitbucketCloudHost()];
      var authorization := AuthorizationHeader(config.credentials).value;
      var list := ListRequest(config.apiBaseUrl, input.workspace.value, input.repo.value, authorization);
      && r.trace[0] == list
      && (forall k :: 0 <= k < |r.trace| ==> r.trace[k].authorization == authorization)
      && match ResolveEnvironment(oracle([], list), input.environment.value)
         case Err(failure) => r == Run([list], RemoteError(failure))
         case Ok(uuid) =>
           FailsFast(r, oracle, [list],
                     Plan(EnvironmentVariablesUrl(config.apiBaseUrl, input.workspace.value, input.repo.value, uuid),
                          authorization, input.variables.value, ids, 0))
  {
    match ResolveIntegration(integrations)
    case Err(problem) => Run([], ConfigError(problem))
    case Ok(config) =>
      if !ValidInput(input) then Run([], InputError)
      else
        match AuthorizationHeader(config.credentials)
        case Err(problem) => Run([], ConfigError(problem))
        case Ok(authorization) =>
          var list := ListRequest(config.apiBaseUrl, input.workspace.value, input.repo.value, authorization);
          match ResolveEnvironment(oracle([], list), input.environment.value)
          case Err(failure) => Run([list], RemoteError(failure))
          case Ok(uuid) =>
            var url := EnvironmentVariablesUrl(config.apiBaseUrl, input.workspace.value, input.repo.value, uuid);
            FailFast(url, authorization, input.variables.value, ids, 0, oracle, [list]);
            CreateAll(url, authorization, input.variables.value, ids, 0, oracle, [list])
  }

  /** A remote side that lists `entries` for the environment listing and
      answers `status` to everything else. */
  function ListingThen(entries: seq<EnvEntry>, status: int): Oracle {
    (sent: seq<Request>, request: Request) =>
      if request.verb == GET then Reply(Listed, Some(entries)) else Reply(status, None)
  }

  /** `[{name: "Production", uuid: "E1"}]` looked up as "production" finds
      "E1"; looked up as "staging" it finds nothing. */
  lemma LookupExample()
    ensures EnvironmentUuid([EnvEntry("Production", Some("E1"))], "production") == Some("E1")
    ensures EnvironmentUuid([EnvEntry("Production", Some("E1"))], "staging") == None
  {
    assert Lower("Production") == "production";
    assert Lower("production") == "production";
    assert "E1"[0] == 'E';
    assert Lower("staging")[0] == 's';
    assert Lower("Production")[0] == 'p';
  }

  /** An entry whose uuid is missing or empty counts as not found, even
      though its name matches; a later entry with the same name is not
      consulted. */
  lemma EmptyUuidExample()
    ensures EnvironmentUuid([EnvEntry("prod", Some("")), EnvEntry("prod", Some("E2"))], "prod") == None
    ensures EnvironmentUuid([EnvEntry("prod", None), EnvEntry("prod", Some("E2"))], "prod") == None
  {
  }

  /** The input of the worked examples: workspace "w", repo "r",
      environment "production", one secured variable A = 1. */
  function ExampleInput(): EnvVarsInput {
    EnvVarsInput(Some("w"), Some("r"), Some("production"), Some([Variable(Some("A"), Some("1"), Some(true))]))
  }

  lemma ExampleValid()
    ensures ValidInput(ExampleInput())
  {
    assert "w"[0] == 'w' && "r"[0] == 'r' && "production"[0] == 'p';
  }

  /** The run of the resolved example, request by request. */
  lemma ResolvedRun(apiBaseUrl: string, ids: nat -> string)
    ensures CreateEnvironmentVariables(TokenIntegrations(apiBaseUrl), ExampleInput(), ids,
                                       ListingThen([EnvEntry("Production", Some("E1"))], Created))
         == Run([ListRequest(apiBaseUrl, "w", "r", "Bearer t"),
                 CreateRequest(EnvironmentVariablesUrl(apiBaseUrl, "w", "r", "E1"), "Bearer t",
                               Variable(Some("A"), Some("1"), Some(true)), ids(0))], Success)
  {
    var integrations := TokenIntegrations(apiBaseUrl);
    assert ResolveIntegration(integrations) == Ok(integrations["bitbucket.org"]);
    TokenHeaderExample();
    ExampleValid();
    LookupExample();
    var oracle := ListingThen([EnvEntry("Production", Some("E1"))], Created);
    var list := ListRequest(apiBaseUrl, "w", "r", "Bearer t");
    assert ResolveEnvironment(oracle([], list), "production") == Ok("E1");
    var url := EnvironmentVariablesUrl(apiBaseUrl, "w", "r", "E1");
    var vars := [Variable(Some("A"), Some("1"), Some(true))];
    var post := CreateRequest(url, "Bearer t", vars[0], ids(0));
    assert oracle([list], post) == Reply(Created, None);
    assert vars[1..] == [];
    assert CreateAll(url, "Bearer t", vars, ids, 0, oracle, [list]) == Run([list, post], Success);
  }

  /** With the environment listed as "Production"/"E1", the example first
      lists the environments, then POSTs the variable to the variables
      endpoint of environment E1, and succeeds when that answers 201. */
  lemma ResolvedExample(apiBaseUrl: string, ids: nat -> string)
    ensures var r := CreateEnvironmentVariables(TokenIntegrations(apiBaseUrl), ExampleInput(), ids,
                                                ListingThen([EnvEntry("Production", Some("E1"))], Created));
      && |r.trace| == 2
      && r.trace[0].verb == GET
      && r.trace[0].url == apiBaseUrl + "/repositories/w/r/environments"
      && r.trace[1].verb == POST
      && r.trace[1].url == RepositoryUrl(apiBaseUrl, "w", "r") + "/deployments_config/environments/" + "E1" + "/variables"
      && r.outcome == Success
  {
    ResolvedRun(apiBaseUrl, ids);
  }

  /** When no environment matches, only the listing request is sent and the
      invocation fails naming the environment. */
  lemma NotFoundExample(apiBaseUrl: string, ids: nat -> string)
    ensures var r := CreateEnvironmentVariables(TokenIntegrations(apiBaseUrl), ExampleInput(), ids,
                                                ListingThen([EnvEntry("staging", Some("E2"))], Created));
      && |r.trace| == 1
      && r.trace[0].verb == GET
      && r.outcome == RemoteError(EnvironmentNotFound("production"))
  {
    var integrations := TokenIntegrations(apiBaseUrl);
    assert ResolveIntegration(integrations) == Ok(integrations["bitbucket.org"]);
    TokenHeaderExample();
    ExampleValid();
    assert Lower("staging")[0] == 's';
    assert Lower("production")[0] == 'p';
    assert EnvironmentUuid([EnvEntry("staging", Some("E2"))], "production") == None;
  }
}

=== FILE: helpers.dfy ===
/** The shared helpers of the Bitbucket Cloud actions: the Authorization
    header derived from the integration's credentials, the fixed cloud host
    name, and the per-host integration lookup every action performs first. */
module Helpers {
  import opened Wrappers
  import Base64
  import Utf8

  /** JavaScript truthiness of an optional string: `undefined` and `""` are
      both falsy. */
  predicate Truthy(s: Option<string>) {
    s.Some? && s.value != ""
  }

  /** The credential part of a Bitbucket Cloud integration configuration;
      every field may be absent. */
  datatype Credentials = Credentials(username: Option<string>, appPassword: Option<string>, token: Option<string>)
  {
    /** Both halves of an app-password login are usable. */
    predicate HasAppPassword() {
      Truthy(username) && Truthy(appPassword)
    }

    /** Some credential shape the header derivation accepts. */
    predicate IsUsable() {
      HasAppPassword() || Truthy(token)
    }
  }

  /** The integration configuration of one host. */
  datatype CloudConfig = CloudConfig(credentials: Credentials, apiBaseUrl: string)

  /** Why an action cannot even start: no integration for the host, or no
      usable credential shape in it. */
  datatype ConfigProblem = NoIntegration | NoAuthorization

  /** The scheme and parameters an Authorization header carries. */
  datatype Scheme = Basic(userId: string, password: string) | Bearer(token: string)

  const BasicPrefix: string := "Basic "
  const BearerPrefix: string := "Bearer "

  /** The host name under which the integration is looked up. */
  function BitbucketCloudHost(): (h: string)
    ensures h == "bitbucket.org"
  {
    "bitbucket.org"
  }

  /** The integration lookup done when an action is created: the
      configuration registered for the cloud host, or NoIntegration. */
  function ResolveIntegration(integrations: map<string, CloudConfig>): (r: Result<CloudConfig, ConfigProblem>)
    ensures r.Ok? <==> "bitbucket.org" in integrations
    ensures r.Ok? ==> r.value == integrations["bitbucket.org"]
    ensures r.Err? ==> r.error == NoIntegration
  {
    var host := BitbucketCloudHost();
    if host in integrations then Ok(integrations[host]) else Err(NoIntegration)
  }

  /** The basic-credentials of section 2 of RFC 7617: user-id, a colon and the
      password, UTF-8 encoded, then Base64 encoded (section 4 of RFC 4648). */
  function BasicCredentials(userId: string, password: string): string {
    Base64.Encode(Utf8.Encode(userId + ":" + password))
  }

  /** Index of the first colon in `s`, if any. */
  function FirstColon(s: string): (r: Option<nat>)
    ensures r.Some? ==> r.value < |s| && s[r.value] == ':' && ':' !in s[..r.value]
    ensures r.None? ==> ':' !in s
    decreases |s|
  {
    if |s| == 0 then None
    else if s[0] == ':' then Some(0)
    else
      match FirstColon(s[1..])
      case None => None
      case Some(i) => Some(i + 1)
  }

  /** The receiving side of RFC 7617 and of section 2.1 of RFC 6750: which
      scheme a header value names and what it carries. The user-id of Basic
      ends at the first colon. */
  function ParseAuthorization(h: string): Option<Scheme> {
    if |h| >= |BasicPrefix| && h[..|BasicPrefix|] == BasicPrefix then
      match Base64.Decode(h[|BasicPrefix|..])
      case None => None
      case Some(bytes) =>
        match Utf8.Decode(bytes)
        case None => None
        case Some(text) =>
          match FirstColon(text)
          case None => None
          case Some(i) => Some(Basic(text[..i], text[i + 1..]))
    else if |h| >= |BearerPrefix| && h[..|BearerPrefix|] == BearerPrefix then
      Some(Bearer(h[|BearerPrefix|..]))
    else None
  }

  /** The user-id is recovered exactly when it holds no colon, as section 2
      of RFC 7617 requires of it. */
  lemma ParseBasic(userId: string, password: string)
    requires ':' !in userId
    ensures ParseAuthorization(BasicPrefix + BasicCredentials(userId, password)) == Some(Basic(userId, password))
  {
    var h := BasicPrefix + BasicCredentials(userId, password);
    var text := userId + ":" + password;
    assert h[..|BasicPrefix|] == BasicPrefix && h[|BasicPrefix|..] == BasicCredentials(userId, password);
    Base64.DecodeEncode(Utf8.Encode(text));
    Utf8.DecodeEncode(text);
    ColonAfter(userId, password);
  }

  lemma ColonAfter(userId: string, password: string)
    requires ':' !in userId
    ensures var text := userId + ":" + password;
      FirstColon(text) == Some(|userId|) && text[..|userId|] == userId && text[|userId| + 1..] == password
  {
    var text := userId + ":" + password;
    assert text[|userId|] == ':';
    assert text[..|userId|] == userId;
    assert text[|userId| + 1..] == password;
  }

  lemma ParseBearer(token: string)
    ensures ParseAuthorization(BearerPrefix + token) == Some(Bearer(token))
  {
    var h := BearerPrefix + token;
    assert h[1] == 'e';
    assert h[|BearerPrefix|..] == token;
  }

  /** getAuthorizationHeader: app-password login first, then the token,
      otherwise a configuration error. */
  function AuthorizationHeader(c: Credentials): (r: Result<string, ConfigProblem>)
    ensures r.Ok? <==> c.IsUsable()
    ensures r.Err? ==> r.error == NoAuthorization
    ensures c.HasAppPassword() && ':' !in c.username.value ==>
      ParseAuthorization(r.value) == Some(Basic(c.username.value, c.appPassword.value))
    ensures !c.HasAppPassword() && Truthy(c.token) ==>
      ParseAuthorization(r.value) == Some(Bearer(c.token.value))
  {
    if c.HasAppPassword() then
      var u, p := c.username.value, c.appPassword.value;
      var header := BasicPrefix + BasicCredentials(u, p);
      assert ':' !in u ==> ParseAuthorization(header) == Some(Basic(u, p)) by {
        if ':' !in u {
          ParseBasic(u, p);
        }
      }
      Ok(header)
    else if Truthy(c.token) then
      ParseBearer(c.token.value);
      Ok(BearerPrefix + c.token.value)
    else Err(NoAuthorization)
  }

  /** Precedence law: with a username and an app password, the token plays
      no part. */
  lemma TokenIgnored(c: Credentials, token: Option<string>)
    requires c.HasAppPassword()
    ensures AuthorizationHeader(c.(token := token)) == AuthorizationHeader(c)
    ensures AuthorizationHeader(c) == Ok(BasicPrefix + BasicCredentials(c.username.value, c.appPassword.value))
  {
  }

  /** An empty username or app password is treated like a missing one. */
  lemma EmptyIsAbsent(c: Credentials)
    ensures AuthorizationHeader(c.(username := Some(""))) == AuthorizationHeader(c.(username := None))
    ensures AuthorizationHeader(c.(appPassword := Some(""))) == AuthorizationHeader(c.(appPassword := None))
  {
  }

  /** Without a usable app-password login, a non-empty token gives a Bearer
      header carrying exactly that token. */
  lemma TokenFallback(c: Credentials)
    requires !c.HasAppPassword() && Truthy(c.token)
    ensures AuthorizationHeader(c) == Ok(BearerPrefix + c.token.value)
  {
  }

  /** The source does not reject a colon in the username; such a user-id is
      invalid under section 2 of RFC 7617, and two different logins then
      share one header. */
  lemma ColonInUsernameIsAmbiguous()
    ensures AuthorizationHeader(Credentials(Some("a:b"), Some("c"), None))
         == AuthorizationHeader(Credentials(Some("a"), Some("b:c"), None))
  {
    assert "a:b" + ":" + "c" == "a" + ":" + "b:c";
  }

  /** The configuration of the worked examples: an integration for the
      cloud host holding only the token "t". */
  function TokenIntegrations(apiBaseUrl: string): map<string, CloudConfig> {
    map["bitbucket.org" := CloudConfig(Credentials(None, None, Some("t")), apiBaseUrl)]
  }

  /** The token "t" alone gives the header "Bearer t". */
  lemma TokenHeaderExample()
    ensures AuthorizationHeader(Credentials(None, None, Some("t"))) == Ok("Bearer t")
  {
    assert Truthy(Some("t")) by { assert "t"[0] == 't'; }
    TokenFallback(Credentials(None, None, Some("t")));
    assert BearerPrefix + "t" == "Bearer t";
  }
}

=== FILE: pipeline_config.dfy ===
/** The `bitbucketCloud:repositories:configurePipeline` action: switch the
    pipelines feature of one repository on or off with a single PUT. */
module PipelineConfig {
  import opened Wrappers
  import opened Helpers
  import opened Remote

  /** The action's input as the host hands it over; any field may be
      missing. */
  datatype PipelineInput = PipelineInput(workspace: Option<string>, repo: Option<string>, enabled: Option<bool>)

  /** The only status the PUT may answer with to count as done. */
  const Configured: int := 200

  /** The handler's input check: workspace and repo must be truthy, while
      `enabled` only has to be defined, so `false` passes. */
  predicate ValidInput(input: PipelineInput) {
    Truthy(input.workspace) && Truthy(input.repo) && input.enabled.Some?
  }

  function PipelinesConfigUrl(apiBaseUrl: string, workspace: string, repo: string): string {
    RepositoryUrl(apiBaseUrl, workspace, repo) + "/pipelines_config"
  }

  /** configureBitbucketCloudPipelineRepository's request: PUT with body
      `{enabled}`. */
  function ConfigureRequest(apiBaseUrl: string, workspace: string, repo: string, enabled: bool,
                            authorization: string): (q: Request)
    ensures q.verb == PUT && q.contentType == ContentType && q.authorization == authorization
    ensures q.url == RepositoryUrl(apiBaseUrl, workspace, repo) + "/pipelines_config"
    ensures q.body == Some(JObject([("enabled", JBool(enabled))]))
  {
    Request(PUT, PipelinesConfigUrl(apiBaseUrl, workspace, repo), authorization, ContentType,
            Some(JObject([("enabled", JBool(enabled))])))
  }

  /** The whole action: integration lookup, input check, header derivation,
      then the one PUT and its status check. */
  function ConfigurePipeline(integrations: map<string, CloudConfig>, input: PipelineInput, oracle: Oracle): (r: Run)
    ensures |r.trace| <= 1
    ensures r.outcome.InputError? <==> BitbucketCloudHost() in integrations && !ValidInput(input)
    ensures r.outcome == ConfigError(NoIntegration) <==> BitbucketCloudHost() !in integrations
    ensures r.outcome == ConfigError(NoAuthorization) <==>
      && BitbucketCloudHost() in integrations
      && ValidInput(input)
      && !integrations[BitbucketCloudHost()].credentials.IsUsable()
    ensures r.outcome.InputError? || r.outcome.ConfigError? ==> r.trace == []
    ensures r.trace != [] <==>
      && BitbucketCloudHost() in integrations
      && ValidInput(input)
      && integrations[BitbucketCloudHost()].credentials.IsUsable()
    ensures r.trace != [] ==>
      var config := integrations[BitbucketCloudHost()];
      var response := oracle([], r.trace[0]);
      && r.trace[0] == ConfigureRequest(config.apiBaseUrl, input.workspace.value, input.repo.value,
                                        input.enabled.value, AuthorizationHeader(config.credentials).value)
      && (r.outcome.Success? <==> response.Reply? && response.status == Configured)
      && (response.TransportFailure? ==> r.outcome == RemoteError(Unreachable))
      && (response.Reply? && response.status != Configured ==> r.outcome == RemoteError(UnexpectedStatus(response.status)))
  {
    match ResolveIntegration(integrations)
    case Err(problem) => Run([], ConfigError(problem))
    case Ok(config) =>
      if !ValidInput(input) then Run([], InputError)
      else
        match AuthorizationHeader(config.credentials)
        case Err(problem) => Run([], ConfigError(problem))
        case Ok(authorization) =>
          var request := ConfigureRequest(config.apiBaseUrl, input.workspace.value, input.repo.value,
                                          input.enabled.value, authorization);
          match Expect(oracle([], request), Configured)
          case None => Run([request], Success)
          case Some(failure) => Run([request], RemoteError(failure))
  }

  /** The request depends on the inputs and the configuration only: two
      invocations with the same input send the same request, whatever the
      remote side answers, and nothing on the client side deduplicates
      them. */
  lemma SameRequestEachTime(integrations: map<string, CloudConfig>, input: PipelineInput, first: Oracle, second: Oracle)
    ensures ConfigurePipeline(integrations, input, first).trace == ConfigurePipeline(integrations, input, second).trace
  {
  }

  /** `enabled: false` is a valid input and is sent as `{"enabled": false}`. */
  lemma DisablingIsValid(workspace: string, repo: string)
    requires workspace != "" && repo != ""
    ensures ValidInput(PipelineInput(Some(workspace), Some(repo), Some(false)))
    ensures !ValidInput(PipelineInput(Some(workspace), Some(repo), None))
    ensures forall apiBaseUrl, authorization ::
      ConfigureRequest(apiBaseUrl, workspace, repo, false, authorization).body == Some(JObject([("enabled", JBool(false))]))
  {
  }

  /** A remote side that answers every request with the same status. */
  function AlwaysAnswer(status: int): Oracle {
    (sent: seq<Request>, request: Request) => Reply(status, None)
  }

  function ExampleRequest(apiBaseUrl: string): Request {
    Request(PUT, apiBaseUrl + "/repositories/w/r/pipelines_config", "Bearer t", ContentType,
            Some(JObject([("enabled", JBool(true))])))
  }

  /** With only the token "t" configured, `{workspace: "w", repo: "r", enabled: true}`
      sends one PUT to `.../repositories/w/r/pipelines_config` with body
      `{enabled: true}` and the Bearer header, whatever the answer. */
  lemma ExampleSendsOnePut(apiBaseUrl: string, oracle: Oracle)
    ensures ConfigurePipeline(TokenIntegrations(apiBaseUrl), PipelineInput(Some("w"), Some("r"), Some(true)), oracle).trace
         == [ExampleRequest(apiBaseUrl)]
  {
    var integrations := TokenIntegrations(apiBaseUrl);
    assert ResolveIntegration(integrations) == Ok(integrations["bitbucket.org"]);
    TokenHeaderExample();
    ExampleUrl(apiBaseUrl);
  }

  lemma ExampleUrl(apiBaseUrl: string)
    ensures PipelinesConfigUrl(apiBaseUrl, "w", "r") == apiBaseUrl + "/repositories/w/r/pipelines_config"
  {
  }

  /** The same invocation succeeds against an endpoint answering 200 and
      fails with the status against one answering 500. */
  lemma EnableExample(apiBaseUrl: string)
    ensures var input := PipelineInput(Some("w"), Some("r"), Some(true));
      && ConfigurePipeline(TokenIntegrations(apiBaseUrl), input, AlwaysAnswer(200)).outcome == Success
      && ConfigurePipeline(TokenIntegrations(apiBaseUrl), input, AlwaysAnswer(500)).outcome
         == RemoteError(UnexpectedStatus(500))
  {
    ExampleSendsOnePut(apiBaseUrl, AlwaysAnswer(200));
    ExampleSendsOnePut(apiBaseUrl, AlwaysAnswer(500));
  }
}

=== FILE: pipeline_variables.dfy ===
/** The `bitbucketCloud:repositories:createVariables` action: create
    repository-level pipeline variables one by one. */
module PipelineVariables {
  import opened Wrappers
  import opened Helpers
  import opened Remote
  import opened Variables

  /** The action's input as the host hands it over; any field may be
      missing. */
  datatype VariablesInput = VariablesInput(workspace: Option<string>, repo: Option<string>, variables: Option<seq<Variable>>)

  /** The handler's input check: truthy workspace and repo, and a defined,
      non-empty variable list. */
  predicate ValidInput(input: VariablesInput) {
    && Truthy(input.workspace)
    && Truthy(input.repo)
    && input.variables.Some?
    && |input.variables.value| > 0
  }

  function VariablesUrl(apiBaseUrl: string, workspace: string, repo: string): string {
    RepositoryUrl(apiBaseUrl, workspace, repo) + "/pipelines_config/variables"
  }

  /** The requests a valid invocation plans to send: one POST per variable
      to the repository's variables endpoint, all with the same header. */
  function PlannedRequests(config: CloudConfig, input: VariablesInput, authorization: string, ids: nat -> string): seq<Request>
    requires ValidInput(input)
  {
    Plan(VariablesUrl(config.apiBaseUrl, input.workspace.value, input.repo.value), authorization,
         input.variables.value, ids, 0)
  }

  /** The whole action: integration lookup, input check, one header
      derivation, then the fail-fast create loop. `ids` stands for the
      successive `uuidv4()` results. */
  function CreateVariables(integrations: map<string, CloudConfig>, input: VariablesInput, ids: nat -> string,
                           oracle: Oracle): (r: Run)
    ensures r.outcome.InputError? <==> BitbucketCloudHost() in integrations && !ValidInput(input)
    ensures r.outcome == ConfigError(NoIntegration) <==> BitbucketCloudHost() !in integrations
    ensures r.outcome == ConfigError(NoAuthorization) <==>
      && BitbucketCloudHost() in integrations
      && ValidInput(input)
      && !integrations[BitbucketCloudHost()].credentials.IsUsable()
    ensures r.outcome.InputError? || r.outcome.ConfigError? ==> r.trace == []
    ensures r.trace != [] <==>
      && BitbucketCloudHost() in integrations
      && ValidInput(input)
      && integrations[BitbucketCloudHost()].credentials.IsUsable()
    ensures r.trace != [] ==>
      var config := integrations[BitbucketCloudHost()];
      var authorization := AuthorizationHeader(config.credentials).value;
      && FailsFast(r, oracle, [], PlannedRequests(config, input, authorization, ids))
      && (forall k :: 0 <= k < |r.trace| ==> r.trace[k].verb == POST && r.trace[k].authorization == authorization)
  {
    match ResolveIntegration(integrations)
    case Err(problem) => Run([], ConfigError(problem))
    case Ok(config) =>
      if !ValidInput(input) then Run([], InputError)
      else
        match AuthorizationHeader(config.credentials)
        case Err(problem) => Run([], ConfigError(problem))
        case Ok(authorization) =>
          var url := VariablesUrl(config.apiBaseUrl, input.workspace.value, input.repo.value);
          var vars := input.variables.value;
          FailFast(url, authorization, vars, ids, 0, oracle, []);
          var r := CreateAll(url, authorization, vars, ids, 0, oracle, []);
          assert r.trace == [] + r.trace;
          r
  }

  /** A remote side that answers 201 to the first request and `status` to
      every later one. */
  function FirstCreatedThen(status: int): Oracle {
    (sent: seq<Request>, request: Request) => if |sent| == 0 then Reply(Created, None) else Reply(status, None)
  }

  /** A valid example invocation runs the create loop with the Bearer header
      on the repository's variables endpoint. */
  lemma ExampleRunsLoop(apiBaseUrl: string, vars: seq<Variable>, ids: nat -> string, oracle: Oracle)
    requires |vars| > 0
    ensures CreateVariables(TokenIntegrations(apiBaseUrl), VariablesInput(Some("w"), Some("r"), Some(vars)), ids, oracle)
      == CreateAll(VariablesUrl(apiBaseUrl, "w", "r"), "Bearer t", vars, ids, 0, oracle, [])
  {
    var integrations := TokenIntegrations(apiBaseUrl);
    assert ResolveIntegration(integrations) == Ok(integrations["bitbucket.org"]);
    assert ValidInput(VariablesInput(Some("w"), Some("r"), Some(vars))) by {
      assert "w"[0] == 'w' && "r"[0] == 'r';
    }
    TokenHeaderExample();
  }

  /** Variable A = 1 then B = 2, with the first create answered 201 and the
      second 400: the invocation fails with status 400 after both requests,
      and the first one created A without a `secured` member. */
  lemma SecondFailsExample(apiBaseUrl: string, ids: nat -> string)
    ensures var integrations := TokenIntegrations(apiBaseUrl);
      var a, b := Variable(Some("A"), Some("1"), None), Variable(Some("B"), Some("2"), None);
      var r := CreateVariables(integrations, VariablesInput(Some("w"), Some("r"), Some([a, b])), ids, FirstCreatedThen(400));
      && |r.trace| == 2
      && r.outcome == RemoteError(UnexpectedStatus(400))
      && r.trace[0].body == Some(JObject([("type", JString("string")), ("uuid", JString(ids(0))),
                                          ("key", JString("A")), ("value", JString("1"))]))
  {
    var a, b := Variable(Some("A"), Some("1"), None), Variable(Some("B"), Some("2"), None);
    var url := VariablesUrl(apiBaseUrl, "w", "r");
    ExampleRunsLoop(apiBaseUrl, [a, b], ids, FirstCreatedThen(400));
    var first := CreateRequest(url, "Bearer t", a, ids(0));
    var second := CreateRequest(url, "Bearer t", b, ids(1));
    var oracle := FirstCreatedThen(400);
    assert [a, b][1..] == [b];
    assert oracle([], first) == Reply(Created, None);
    assert [] + [first] == [first];
    assert CreateAll(url, "Bearer t", [a, b], ids, 0, oracle, []) == CreateAll(url, "Bearer t", [b], ids, 1, oracle, [first]);
    assert oracle([first], second) == Reply(400, None);
    assert CreateAll(url, "Bearer t", [b], ids, 1, oracle, [first]) == Run([first, second], RemoteError(UnexpectedStatus(400)));
    assert VariableBody(a, ids(0)) == JObject([("type", JString("string")), ("uuid", JString(ids(0))),
                                               ("key", JString("A")), ("value", JString("1"))]);
  }
}

=== FILE: remote.dfy ===
/** What the actions send to and receive from the Bitbucket Cloud REST API.
    The transport is an oracle: given the requests already sent and the next
    one, it answers with a status (and, for the environment listing, the
    parsed collection) or with a transport failure. Each action is then a
    pure function from its inputs and the oracle to the requests it issued
    and how it ended. */
module Remote {
  import opened Wrappers
  import Helpers

  datatype Method = GET | POST | PUT

  /** The JSON values the request bodies are built from. */
  datatype Json = JBool(b: bool) | JString(s: string) | JObject(members: seq<(string, Json)>)

  /** The value a JSON reader finds under `name`: that of the first member
      so named, or None when the object has no such member. */
  function Member(members: seq<(string, Json)>, name: string): Option<Json>
    decreases |members|
  {
    if |members| == 0 then None
    else if members[0].0 == name then Some(members[0].1)
    else Member(members[1..], name)
  }

  /** Every request carries this Content-Type. */
  const ContentType: string := "application/json"

  datatype Request = Request(verb: Method, url: string, authorization: string, contentType: string, body: Option<Json>)

  /** One element of the `values` array of the environment listing. */
  datatype EnvEntry = EnvEntry(name: string, uuid: Option<string>)

  /** What `fetch` yields: a rejection (network error, DNS, reset), or a
      response with its status and, when the body is a JSON object whose
      `values` is an array of environments, that array. */
  datatype Response = TransportFailure | Reply(status: int, listing: Option<seq<EnvEntry>>)

  /** The remote side: the answer to a request may depend on everything that
      was sent before it. */
  type Oracle = (seq<Request>, Request) -> Response

  /** Why a remote step failed. */
  datatype Failure =
    | Unreachable
    | UnexpectedStatus(status: int)
    | MalformedListing
    | EnvironmentNotFound(environment: string)

  /** How an invocation of an action ends: it returns, or it throws one of
      the source's errors. */
  datatype Outcome =
    | Success
    | InputError
    | ConfigError(problem: Helpers.ConfigProblem)
    | RemoteError(failure: Failure)

  /** The requests one invocation issued, in order, and its outcome. */
  datatype Run = Run(trace: seq<Request>, outcome: Outcome)

  /** The status check after each `fetch`: only the one expected status
      passes; a rejected `fetch` and any other status are failures. */
  function Expect(response: Response, status: int): (r: Option<Failure>)
    ensures r.None? <==> response.Reply? && response.status == status
    ensures response.TransportFailure? ==> r == Some(Unreachable)
    ensures response.Reply? && response.status != status ==> r == Some(UnexpectedStatus(response.status))
  {
    match response
    case TransportFailure => Some(Unreachable)
    case Reply(code, _) => if code == status then None else Some(UnexpectedStatus(code))
  }

  /** `{apiBaseUrl}/repositories/{workspace}/{repo}`, the prefix of every
      endpoint the actions call. */
  function RepositoryUrl(apiBaseUrl: string, workspace: string, repo: string): string {
    apiBaseUrl + "/repositories/" + workspace + "/" + repo
  }
}

=== FILE: utf8.dfy ===
/** UTF-8 as Node's `Buffer.from(text, 'utf8')` produces it (RFC 3629,
    section 3), over Dafny strings, whose characters are Unicode scalar
    values. The decoder is strict and is the encoder's inverse. */
module Utf8 {
  import opened Wrappers
  import opened Bytes

  predicate IsContinuation(b: byte) {
    0x80 <= b < 0xC0
  }

  /** Number of bytes the encoding of `c` takes (RFC 3629, section 3 table). */
  function Width(c: char): (k: nat)
    ensures 1 <= k <= 4
  {
    var n := c as int;
    if n < 0x80 then 1
    else if n < 0x800 then 2
    else if n < 0x1_0000 then 3
    else 4
  }

  /** The byte sequence of one scalar value. */
  function EncodeChar(c: char): (r: seq<byte>)
    ensures |r| == Width(c)
  {
    var n := c as int;
    if n < 0x80 then [n]
    else if n < 0x800 then [0xC0 + n / 64, 0x80 + n % 64]
    else if n < 0x1_0000 then [0xE0 + n / 4096, 0x80 + n / 64 % 64, 0x80 + n % 64]
    else [0xF0 + n / 262144, 0x80 + n / 4096 % 64, 0x80 + n / 64 % 64, 0x80 + n % 64]
  }

  /** The UTF-8 bytes of a string: each character's sequence, in order. */
  function Encode(s: string): (r: seq<byte>)
    ensures |s| <= |r| <= 4 * |s|
    decreases |s|
  {
    if |s| == 0 then [] else EncodeChar(s[0]) + Encode(s[1..])
  }

  /** A code point the decoder may turn into a `char`: not a surrogate, at
      most U+10FFFF. */
  predicate IsScalar(n: int) {
    0 <= n < 0xD800 || 0xE000 <= n < 0x11_0000
  }

  /** The scalar value that starts `b` and how many bytes it takes; None for
      a malformed, overlong, surrogate or out-of-range sequence. */
  function DecodeFirst(b: seq<byte>): (r: Option<(char, nat)>)
    requires |b| > 0
    ensures r.Some? ==> 1 <= r.value.1 <= |b| && r.value.1 == Width(r.value.0)
  {
    var b0: int := b[0];
    if b0 < 0x80 then Some((b0 as char, 1))
    else if 0xC2 <= b0 < 0xE0 then
      if |b| >= 2 && IsContinuation(b[1]) then
        var n := (b0 - 0xC0) * 64 + (b[1] as int - 0x80);
        Some((n as char, 2))
      else None
    else if 0xE0 <= b0 < 0xF0 then
      if |b| >= 3 && IsContinuation(b[1]) && IsContinuation(b[2]) then
        var n := (b0 - 0xE0) * 4096 + (b[1] as int - 0x80) * 64 + (b[2] as int - 0x80);
        if 0x800 <= n && IsScalar(n) then Some((n as char, 3)) else None
      else None
    else if 0xF0 <= b0 < 0xF5 then
      if |b| >= 4 && IsContinuation(b[1]) && IsContinuation(b[2]) && IsContinuation(b[3]) then
        var n := (b0 - 0xF0) * 262144 + (b[1] as int - 0x80) * 4096 + (b[2] as int - 0x80) * 64 + (b[3] as int - 0x80);
        if 0x1_0000 <= n < 0x11_0000 then Some((n as char, 4)) else None
      else None
    else None
  }

  /** Strict UTF-8 decoding; None when any sequence is malformed. */
  function Decode(b: seq<byte>): (r: Option<string>)
    ensures r.Some? ==> |r.value| <= |b|
    decreases |b|
  {
    if |b| == 0 then Some("")
    else
      match DecodeFirst(b)
      case None => None
      case Some((c, k)) =>
        match Decode(b[k..])
        case None => None
        case Some(rest) => Some([c] + rest)
  }

  /** `n` written in base 64, most significant digit first. */
  lemma Digits(n: int)
    requires 0 <= n < 0x11_0000
    ensures n / 4096 == n / 64 / 64
    ensures n / 262144 == n / 4096 / 64
    ensures n == n / 64 * 64 + n % 64
    ensures n / 64 == n / 4096 * 64 + n / 64 % 64
    ensures n / 4096 == n / 262144 * 64 + n / 4096 % 64
  {
  }

  /** The sequence of one character decodes back to it, whatever follows. */
  lemma CharRoundTrip(c: char, rest: seq<byte>)
    ensures DecodeFirst(EncodeChar(c) + rest) == Some((c, Width(c)))
  {
    var n := c as int;
    if n < 0x80 {
      assert (EncodeChar(c) + rest)[0] == n;
    } else if n < 0x800 {
      TwoRoundTrip(c, rest);
    } else if n < 0x1_0000 {
      ThreeRoundTrip(c, rest);
    } else {
      FourRoundTrip(c, rest);
    }
  }

  lemma TwoRoundTrip(c: char, rest: seq<byte>)
    requires 0x80 <= c as int < 0x800
    ensures DecodeFirst(EncodeChar(c) + rest) == Some((c, 2))
  {
    var n := c as int;
    var b := EncodeChar(c) + rest;
    Digits(n);
    assert b[0] == 0xC0 + n / 64 && b[1] == 0x80 + n % 64;
  }

  lemma ThreeRoundTrip(c: char, rest: seq<byte>)
    requires 0x800 <= c as int < 0x1_0000
    ensures DecodeFirst(EncodeChar(c) + rest) == Some((c, 3))
  {
    var n := c as int;
    var b := EncodeChar(c) + rest;
    Digits(n);
    assert b[0] == 0xE0 + n / 4096 && b[1] == 0x80 + n / 64 % 64 && b[2] == 0x80 + n % 64;
  }

  lemma FourRoundTrip(c: char, rest: seq<byte>)
    requires 0x1_0000 <= c as int
    ensures DecodeFirst(EncodeChar(c) + rest) == Some((c, 4))
  {
    var n := c as int;
    var b := EncodeChar(c) + rest;
    Digits(n);
    assert b[0] == 0xF0 + n / 262144 && b[1] == 0x80 + n / 4096 % 64;
    assert b[2] == 0x80 + n / 64 % 64 && b[3] == 0x80 + n % 64;
  }

  lemma DecodeStep(c: char, s: string)
    requires Decode(Encode(s)) == Some(s)
    ensures Decode(Encode([c] + s)) == Some([c] + s)
  {
    var t := [c] + s;
    assert t[0] == c && t[1..] == s;
    var e := EncodeChar(c);
    var b := Encode(t);
    assert b == e + Encode(s);
    CharRoundTrip(c, Encode(s));
    assert b[|e|..] == Encode(s);
  }

  /** Decoding undoes encoding. */
  lemma {:induction false} DecodeEncode(s: string)
    ensures Decode(Encode(s)) == Some(s)
    decreases |s|
  {
    if |s| > 0 {
      DecodeEncode(s[1..]);
      DecodeStep(s[0], s[1..]);
      assert [s[0]] + s[1..] == s;
    }
  }

  /** The encoding of a concatenation is the concatenation of the encodings. */
  lemma {:induction false} EncodeAppend(a: string, b: string)
    ensures Encode(a + b) == Encode(a) + Encode(b)
    decreases |a|
  {
    if |a| > 0 {
      assert (a + b)[0] == a[0];
      assert (a + b)[1..] == a[1..] + b;
      EncodeAppend(a[1..], b);
    } else {
      assert a + b == b;
    }
  }

  /** The examples of section 7 of RFC 3629: "A" NOT IDENTICAL TO, ALPHA,
      "." and U+233B4; then one character per row of the table of section
      3: U+00E9, U+20AC and U+10348. */
  lemma EncodeVectors()
    ensures Encode("A\U{2262}\U{391}.") == [0x41, 0xE2, 0x89, 0xA2, 0xCE, 0x91, 0x2E]
    ensures Encode("\U{233B4}") == [0xF0, 0xA3, 0x8E, 0xB4]
    ensures Encode("\U{E9}") == [0xC3, 0xA9]
    ensures Encode("\U{20AC}") == [0xE2, 0x82, 0xAC]
    ensures Encode("\U{10348}") == [0xF0, 0x90, 0x8D, 0x88]
  {
  }

  /** Different strings have different encodings. */
  lemma EncodeInjective(a: string, b: string)
    requires Encode(a) == Encode(b)
    ensures a == b
  {
    DecodeEncode(a);
    DecodeEncode(b);
  }
}

=== FILE: variables.dfy ===
/** Creating pipeline variables one after the other, as both variable actions
    do: one POST per input element, in input order, each awaited before the
    next, stopping at the first failure. Nothing already created is undone. */
module Variables {
  import opened Wrappers
  import opened Remote

  /** An element of the `variables` input. Neither handler checks it, so any
      of its fields may be left out. */
  datatype Variable = Variable(key: Option<string>, value: Option<string>, secured: Option<bool>)

  /** The only status a create request may answer with to count as done. */
  const Created: int := 201

  function StringField(field: Option<string>): Option<Json> {
    if field.Some? then Some(JString(field.value)) else None
  }

  function BoolField(field: Option<bool>): Option<Json> {
    if field.Some? then Some(JBool(field.value)) else None
  }

  /** The member `JSON.stringify` writes for a field: none when the field is
      undefined. */
  function Present(name: string, field: Option<Json>): seq<(string, Json)> {
    if field.Some? then [(name, field.value)] else []
  }

  /** Position of a member name in the object literal of the create call. */
  function Rank(name: string): nat {
    if name == "type" then 0
    else if name == "uuid" then 1
    else if name == "key" then 2
    else if name == "value" then 3
    else if name == "secured" then 4
    else 5
  }

  function Defined<T>(field: Option<T>): nat {
    if field.Some? then 1 else 0
  }

  /** Members with other names before `rest` do not change what a reader
      finds under `name`. */
  lemma {:induction false} MemberSkip(prefix: seq<(string, Json)>, rest: seq<(string, Json)>, name: string)
    requires forall i :: 0 <= i < |prefix| ==> prefix[i].0 != name
    ensures Member(prefix + rest, name) == Member(rest, name)
    decreases |prefix|
  {
    if |prefix| > 0 {
      assert (prefix + rest)[0] == prefix[0];
      assert (prefix + rest)[1..] == prefix[1..] + rest;
      MemberSkip(prefix[1..], rest, name);
    } else {
      assert prefix + rest == rest;
    }
  }

  /** A defined field is found under its name; an undefined one is found
      nowhere in what follows it when no later member has its name. */
  lemma PresentFound(name: string, field: Option<Json>, rest: seq<(string, Json)>)
    requires forall i :: 0 <= i < |rest| ==> rest[i].0 != name
    ensures Member(Present(name, field) + rest, name) == field
  {
    if field.Some? {
      assert (Present(name, field) + rest)[0] == (name, field.value);
    } else {
      assert Present(name, field) + rest == rest + [];
      MemberSkip(rest, [], name);
    }
  }

  /** Member names strictly in literal order, each one of the five the
      create call writes. */
  predicate Ascending(m: seq<(string, Json)>) {
    forall a, b :: 0 <= a < b < |m| ==> Rank(m[a].0) < Rank(m[b].0) < 5
  }

  predicate RanksBelow(m: seq<(string, Json)>, bound: nat) {
    forall a :: 0 <= a < |m| ==> Rank(m[a].0) < bound
  }

  /** Appending a member ranked after everything so far keeps the order. */
  lemma AppendAscending(m: seq<(string, Json)>, name: string, field: Option<Json>)
    requires Ascending(m) && RanksBelow(m, Rank(name)) && Rank(name) < 5
    ensures Ascending(m + Present(name, field)) && RanksBelow(m + Present(name, field), Rank(name) + 1)
  {
    var t := m + Present(name, field);
    forall a | 0 <= a < |t|
      ensures Rank(t[a].0) < Rank(name) + 1
    {
      if a < |m| {
        assert t[a] == m[a];
      }
    }
  }

  /** The members of the create body: `type`, `uuid`, then the defined
      fields among `key`, `value` and `secured`. */
  function BodyMembers(v: Variable, id: string): seq<(string, Json)> {
    [("type", JString("string")), ("uuid", JString(id))]
      + Present("key", StringField(v.key)) + Present("value", StringField(v.value))
      + Present("secured", BoolField(v.secured))
  }

  lemma KeyFound(v: Variable, id: string)
    ensures Member(BodyMembers(v, id), "key") == StringField(v.key)
  {
    var head := [("type", JString("string")), ("uuid", JString(id))];
    var rest := Present("value", StringField(v.value)) + Present("secured", BoolField(v.secured));
    assert BodyMembers(v, id) == head + (Present("key", StringField(v.key)) + rest);
    MemberSkip(head, Present("key", StringField(v.key)) + rest, "key");
    PresentFound("key", StringField(v.key), rest);
  }

  lemma ValueFound(v: Variable, id: string)
    ensures Member(BodyMembers(v, id), "value") == StringField(v.value)
  {
    var before := [("type", JString("string")), ("uuid", JString(id))] + Present("key", StringField(v.key));
    var secured := Present("secured", BoolField(v.secured));
    assert BodyMembers(v, id) == before + (Present("value", StringField(v.value)) + secured);
    MemberSkip(before, Present("value", StringField(v.value)) + secured, "value");
    PresentFound("value", StringField(v.value), secured);
  }

  lemma SecuredFound(v: Variable, id: string)
    ensures Member(BodyMembers(v, id), "secured") == BoolField(v.secured)
  {
    var before := [("type", JString("string")), ("uuid", JString(id))]
      + Present("key", StringField(v.key)) + Present("value", StringField(v.value));
    var secured := Present("secured", BoolField(v.secured));
    assert BodyMembers(v, id) == before + (secured + []);
    MemberSkip(before, secured + [], "secured");
    PresentFound("secured", BoolField(v.secured), []);
  }

  lemma BodyOrder(v: Variable, id: string)
    ensures Ascending(BodyMembers(v, id))
  {
    var head := [("type", JString("string")), ("uuid", JString(id))];
    assert Rank("type") == 0 && Rank("uuid") == 1 && Rank("key") == 2;
    assert Ascending(head) && RanksBelow(head, 2);
    AppendAscending(head, "key", StringField(v.key));
    var withKey := head + Present("key", StringField(v.key));
    assert Rank("value") == 3;
    AppendAscending(withKey, "value", StringField(v.value));
    var withValue := withKey + Present("value", StringField(v.value));
    assert Rank("secured") == 4;
    AppendAscending(withValue, "secured", BoolField(v.secured));
  }

  /** The object `JSON.stringify` serialises for a create request: `type` and
      the fresh `uuid`, then `key`, `value` and `secured` in literal order,
      each dropped when undefined, as `JSON.stringify` drops members whose
      value is `undefined`. */
  function VariableBody(v: Variable, id: string): (j: Json)
    ensures j.JObject?
    ensures |j.members| == 2 + Defined(v.key) + Defined(v.value) + Defined(v.secured)
    ensures j.members[0] == ("type", JString("string")) && j.members[1] == ("uuid", JString(id))
    ensures Member(j.members, "key") == StringField(v.key)
    ensures Member(j.members, "value") == StringField(v.value)
    ensures Member(j.members, "secured") == BoolField(v.secured)
    ensures Ascending(j.members)
  {
    KeyFound(v, id);
    ValueFound(v, id);
    SecuredFound(v, id);
    BodyOrder(v, id);
    JObject(BodyMembers(v, id))
  }

  /** An element without `key` gives a body without a `key` member, since
      `JSON.stringify` leaves the undefined value out. */
  lemma MissingKeyExample(id: string)
    ensures VariableBody(Variable(None, Some("1"), None), id)
            == JObject([("type", JString("string")), ("uuid", JString(id)), ("value", JString("1"))])
  {
  }

  /** One create request: POST to `url` with the shared Authorization header
      and a body carrying a freshly generated id. */
  function CreateRequest(url: string, authorization: string, v: Variable, id: string): (q: Request)
    ensures q.verb == POST && q.url == url && q.body == Some(VariableBody(v, id))
    ensures q.authorization == authorization && q.contentType == ContentType
  {
    Request(POST, url, authorization, ContentType, Some(VariableBody(v, id)))
  }

  /** The requests the loop would send if every one succeeded: element k of
      `vars` with the k-th generated id (counting from `next`). */
  function Plan(url: string, authorization: string, vars: seq<Variable>, ids: nat -> string, next: nat): (p: seq<Request>)
    ensures |p| == |vars|
    ensures forall k :: 0 <= k < |vars| ==> p[k] == CreateRequest(url, authorization, vars[k], ids(next + k))
    decreases |vars|
  {
    if |vars| == 0 then []
    else [CreateRequest(url, authorization, vars[0], ids(next))] + Plan(url, authorization, vars[1..], ids, next + 1)
  }

  /** The `for ... of` loop with its awaited create call. `sent` is what the
      invocation had already sent before the loop. */
  function CreateAll(url: string, authorization: string, vars: seq<Variable>, ids: nat -> string, next: nat,
                     oracle: Oracle, sent: seq<Request>): (r: Run)
    ensures r.outcome.Success? || r.outcome.RemoteError?
    ensures |sent| <= |r.trace| <= |sent| + |vars|
    ensures r.trace[..|sent|] == sent
    ensures |vars| > 0 ==> |r.trace| > |sent|
    ensures r.outcome.Success? ==> |r.trace| == |sent| + |vars|
    decreases |vars|
  {
    if |vars| == 0 then Run(sent, Success)
    else
      var request := CreateRequest(url, authorization, vars[0], ids(next));
      var response := oracle(sent, request);
      match Expect(response, Created)
      case Some(failure) => Run(sent + [request], RemoteError(failure))
      case None =>
        var r := CreateAll(url, authorization, vars[1..], ids, next + 1, oracle, sent + [request]);
        assert (sent + [request]) == r.trace[..|sent| + 1];
        r
  }

  /** Request k of the plan was answered with 201 when it was sent after
      `sent` and the k requests before it. */
  predicate Accepted(oracle: Oracle, sent: seq<Request>, plan: seq<Request>, k: nat)
    requires k < |plan|
  {
    Expect(oracle(sent + plan[..k], plan[k]), Created).None?
  }

  /** Request i is the first of the plan not answered with 201, and `r` is
      the run that sent the plan up to and including it and failed there. */
  ghost predicate StopsAt(r: Run, oracle: Oracle, sent: seq<Request>, plan: seq<Request>, i: nat) {
    && i < |plan|
    && (forall k :: 0 <= k < i ==> Accepted(oracle, sent, plan, k))
    && !Accepted(oracle, sent, plan, i)
    && r.trace == sent + plan[..i + 1]
    && r.outcome.RemoteError?
    && Expect(oracle(sent + plan[..i], plan[i]), Created) == Some(r.outcome.failure)
  }

  /** What the loop promises about a run `r` over `plan`: it succeeds exactly
      when every request is answered with 201, having sent the whole plan,
      and otherwise it stops at the first request that was not. */
  ghost predicate FailsFast(r: Run, oracle: Oracle, sent: seq<Request>, plan: seq<Request>) {
    && (r.outcome.Success? <==> forall k :: 0 <= k < |plan| ==> Accepted(oracle, sent, plan, k))
    && (r.outcome.Success? ==> r.trace == sent + plan)
    && (!r.outcome.Success? ==> exists i :: StopsAt(r, oracle, sent, plan, i))
  }

  /** Moving the first planned request into what was already sent shifts
      every later index by one. */
  lemma AcceptedShift(oracle: Oracle, sent: seq<Request>, request: Request, rest: seq<Request>, k: nat)
    requires k < |rest|
    ensures Accepted(oracle, sent + [request], rest, k) <==> Accepted(oracle, sent, [request] + rest, k + 1)
    ensures sent + [request] + rest[..k] == sent + ([request] + rest)[..k + 1]
  {
    var plan := [request] + rest;
    assert sent + [request] + rest[..k] == sent + plan[..k + 1];
    assert rest[k] == plan[k + 1];
  }

  /** A first request answered with 201, followed by a fail-fast run over the
      rest, is a fail-fast run over the whole plan. */
  lemma FailsFastCons(r: Run, oracle: Oracle, sent: seq<Request>, request: Request, rest: seq<Request>)
    requires Accepted(oracle, sent, [request] + rest, 0)
    requires FailsFast(r, oracle, sent + [request], rest)
    ensures FailsFast(r, oracle, sent, [request] + rest)
  {
    var plan := [request] + rest;
    var sent' := sent + [request];
    if r.outcome.Success? {
      assert sent' + rest == sent + plan;
      forall k | 0 <= k < |plan|
        ensures Accepted(oracle, sent, plan, k)
      {
        if k > 0 {
          AcceptedShift(oracle, sent, request, rest, k - 1);
        }
      }
    } else {
      var i: nat :| StopsAt(r, oracle, sent', rest, i);
      forall k | 0 <= k < i + 1
        ensures Accepted(oracle, sent, plan, k)
      {
        if k > 0 {
          AcceptedShift(oracle, sent, request, rest, k - 1);
        }
      }
      AcceptedShift(oracle, sent, request, rest, i);
      assert sent' + rest[..i + 1] == sent + plan[..i + 2];
      assert StopsAt(r, oracle, sent, plan, i + 1);
      assert !Accepted(oracle, sent, plan, i + 1);
    }
  }

  /** Fail-fast: the loop sends exactly the planned requests up to and
      including the first one not answered with 201, and succeeds exactly
      when every planned request was answered with 201, after sending all
      of them. */
  lemma {:induction false} FailFast(url: string, authorization: string, vars: seq<Variable>, ids: nat -> string,
                                    next: nat, oracle: Oracle, sent: seq<Request>)
    ensures FailsFast(CreateAll(url, authorization, vars, ids, next, oracle, sent), oracle, sent,
                      Plan(url, authorization, vars, ids, next))
    decreases |vars|
  {
    var r := CreateAll(url, authorization, vars, ids, next, oracle, sent);
    var plan := Plan(url, authorization, vars, ids, next);
    if |vars| == 0 {
      assert sent + plan == sent;
    } else {
      var request := plan[0];
      var rest := Plan(url, authorization, vars[1..], ids, next + 1);
      assert plan == [request] + rest;
      assert sent + plan[..0] == sent;
      if Expect(oracle(sent, request), Created).None? {
        FailFast(url, authorization, vars[1..], ids, next + 1, oracle, sent + [request]);
        FailsFastCons(r, oracle, sent, request, rest);
      } else {
        assert sent + [request] == sent + plan[..1];
        assert StopsAt(r, oracle, sent, plan, 0);
      }
    }
  }

  /** Whatever the answers, a fail-fast run over a non-empty plan has sent a
      non-empty prefix of it: all of it when it succeeded, and otherwise up
      to the request that was refused, which is the last one sent. Nothing
      sent is ever taken back. */
  lemma SentPrefix(r: Run, oracle: Oracle, sent: seq<Request>, plan: seq<Request>)
    requires FailsFast(r, oracle, sent, plan)
    requires |plan| > 0
    ensures |sent| < |r.trace| <= |sent| + |plan|
    ensures r.trace == sent + plan[..|r.trace| - |sent|]
    ensures r.outcome.Success? ==> |r.trace| == |sent| + |plan|
    ensures !r.outcome.Success? ==> !Accepted(oracle, sent, plan, |r.trace| - |sent| - 1)
  {
    if r.outcome.Success? {
      assert plan[..|plan|] == plan;
    } else {
      var i: nat :| StopsAt(r, oracle, sent, plan, i);
      assert |r.trace| == |sent| + i + 1;
    }
  }
}

=== FILE: wrappers.dfy ===
/** Option and Result: the failure-carrying values the rest of the model returns
    where the TypeScript source returns `undefined` or throws. */
module Wrappers {

  datatype Option<+T> = None | Some(value: T)

  datatype Result<+R, +E> = Ok(value: R) | Err(error: E)
}
